=== FILE: README.md ===
# tasks-manager: the domain and persistence core in Dafny

tasks-manager is a single-user desktop tracker for tasks and goals. This project models its
core in Dafny and proves properties of the model:

- **Entities**: the task, goal and user records with their defaults. This includes the
  construction hook that backfills timestamps, task completion, snoozing and next-instance
  generation. It also includes recurrence-rule checks, goal archiving, streak updates, the
  completion rate and keyword updates of notification preferences.
- **Enumerations**: the enums and the string tags they are stored under, with decoders that
  invert the tags.
- **Repositories**: the three SQLite repositories over an abstract keyed store.
  - Each table is a `map` from primary key to a row datatype that holds the SQL columns, with
    NULL as `None`.
  - Saves are upserts, and deleting a missing id is a no-op.
  - Reading a row back fills in the same defaults the Python mapping does, and an unknown enum
    tag is an error.
  - The task listing is a filter (owner, completion, inclusive date range, trimmed
    case-insensitive `LIKE` search) plus a three-key sort.
  - The user repository stores a user and its preference row together.
- **Services**: the task service (initial status from the due date, partial update with
  progress clamped to 0..100, complete, cancel, start, delete, reads) and the goal and user
  services.
- **UI helper**: the `hex_to_rgb` colour parser, including Python's base-16 `int()`.

**Parameters and modelling choices**

- The clock reading `now`, fresh task identifiers and store failures are all parameters.
- A failure is a `Storage.Fault` given to each repository call: healthy, `connect()` raises, or
  a statement raises.
- Every operation returns a `Result`. A failed write therefore leaves the table untouched, which
  models the rollback.
- Timestamps are abstract: `Instant(day, tick)`, ordered lexicographically, where `day` is the
  calendar date.
- The listing methods choose among map keys nondeterministically. This models the row order
  that SQL leaves unspecified (ties in the sort, or no `ORDER BY` at all). What is proved holds
  for every such choice.

**Where this model follows the code rather than the design description**

- A task due earlier today gets status TODAY, not OVERDUE, because the date comparison comes
  first (`TaskService.EarlierTodayIsToday`).
- `hex_to_rgb` accepts five digits after the `#`: the third slice is then one character long.
  It also accepts a sign or `int()` whitespace in a slice (`Colors.FiveDigits`,
  `Colors.NegatedDigit`, `Colors.PaddedDigit`). That whitespace is `str.isspace` without the
  separators U+001C..U+001F, which make the conversion fail (`Colors.SeparatorIsNotPadding`). Only four or fewer characters are certain to fail
  (`Colors.ShortInputFails`).
- A goal saved with an empty colour reads back with the default colour, because the mapping
  uses `or "#4CAF50"`.
- A goal row whose `is_archived` is NULL reads back as not archived. The `is_archived = 0`
  filter still leaves it out of the default listing.

## Model

| member | source | states |
|---|---|---|
| Enums.ParsePriority | models/enums.py:7-13 | Decoding succeeds exactly on the tag of some priority and returns that priority, so decoding inverts the tags |
| Enums.ParseTaskType | models/enums.py:16-23 | Decoding inverts the five task-type tags, including "goal" and "study_session" |
| Enums.ParseTaskStatus | models/enums.py:26-40 | Decoding inverts the twelve status tags |
| Enums.TwelveDistinctStatuses | models/enums.py:29-40 | There are exactly twelve statuses with pairwise distinct tags; REJECTED is stored as "rejected", distinct from "cancelled" |
| Enums.ParseRecurrenceType | models/enums.py:43-49 | Decoding inverts the four recurrence tags |
| Enums.ParseDayOfWeek | models/enums.py:52-61 | Exactly the integers 0..6 decode, 0 as MONDAY and 6 as SUNDAY, and decoding inverts the day values |
| Enums.ParseReminderType | models/enums.py:64-69 | Decoding inverts the three reminder tags |
| Enums.ParseGoalCategory | models/enums.py:72-79 | Decoding inverts the five category tags |
| Enums.ParseFrequencyType | models/enums.py:82-87 | Decoding inverts the three frequency tags |
| Enums.PriorityAndFrequencyTagSets | models/enums.py:10-13 | The priority tags are exactly low, medium, high and urgent; the frequency tags are exactly daily, weekly and monthly |
| Recurrence.GetNextOccurrence | models/recurrence_rule.py:29-34 | No occurrence exactly when an end date is set and the instant is not before it; otherwise the instant itself |
| Recurrence.ShouldRepeat | models/recurrence_rule.py:36-42 | False when the end date is reached or a budget of at most 0 is set; true in every other case |
| Recurrence.RepeatingRuleYieldsSameInstant | models/recurrence_rule.py:29-42 | Whenever the rule repeats, the next occurrence is the given instant |
| Recurrence.ScheduleFieldsIgnored | models/recurrence_rule.py:29-42 | Type, interval and weekdays never affect either query |
| Recurrence.DefaultRuleRepeatsForever | models/recurrence_rule.py:23-27 | A rule built from its type alone has interval 1, no weekdays, no end and no budget, and always repeats |
| Tasks.PostInit | models/task.py:52-57 | Both stamps are present afterwards; an existing stamp is kept; when both are missing they become the same instant; nothing else changes |
| Tasks.PostInitIdempotent | models/task.py:52-57 | Constructing an already constructed task changes nothing |
| Tasks.Complete | models/task.py:59-65 | Completed flag, COMPLETED status, progress 100, completion and update stamps set to now; every other field unchanged |
| Tasks.CompleteIdempotent | models/task.py:59-65 | Completing twice equals completing once at the later instant; flag, status and progress agree |
| Tasks.CompleteHasNoStatusGuard | models/task.py:59-65 | The result does not depend on the prior status, flag or progress, so a cancelled task completes |
| Tasks.Snooze | models/task.py:67-71 | SNOOZED, due at the given instant, update stamp refreshed; nothing else changes |
| Tasks.SnoozeTwice | models/task.py:67-71 | A second snooze overrides the first; snoozing leaves completion and progress as they were |
| Tasks.GenerateNextInstance | models/task.py:73-96 | None exactly when there is no rule or it does not repeat at the due date (or now when undated); otherwise a copy of the descriptive fields and the rule, due at the next occurrence, with empty id, CREATED status, not completed, progress 0 and fresh stamps |
| Goals.PostInit | models/goal.py:41-43 | A missing creation stamp becomes now, an existing one is kept, nothing else changes |
| Goals.Archive | models/goal.py:45-47 | Only the archived flag changes, and it becomes true |
| Goals.ArchiveIdempotent | models/goal.py:45-47 | Archiving twice is archiving once; an archived goal is a fixed point |
| Goals.UpdateStreak | models/goal.py:49-53 | The current streak becomes the new value; the longest streak never falls and rises to a larger given value; nothing else changes |
| Goals.StreakWithoutLongestKeepsLongest | models/goal.py:49-53 | Without a new longest value the longest streak stays, whatever the new current streak |
| Goals.StreakExamples | models/goal.py:52-53 | A longest streak of 5 survives an update offering 2 and rises to 7 when 7 is offered |
| Goals.CompletionRate | models/goal.py:55-59 | 0 when nothing is scheduled; otherwise the ratio capped at 1, so never above 1 |
| Users.DefaultPreferences | models/user.py:8-16 | Notifications on, reminder 15 minutes, no sound, no quiet hours |
| Users.ToggleStudentMode | models/user.py:40-42 | Student mode is negated, nothing else changes |
| Users.ToggleTwiceRestores | models/user.py:40-42 | Toggling twice restores the user |
| Users.SetAttr | models/user.py:46-48 | A keyword naming a preference field sets that field alone; any other keyword changes nothing |
| Users.UpdatePreferences | models/user.py:44-48 | Only the preferences can change; name, email, stamp and student mode are kept |
| Users.UnnamedFieldsUnchanged | models/user.py:44-48 | A preference field no keyword names keeps its value |
| Users.LastKeywordWins | models/user.py:44-48 | A field takes the value of the last keyword that names it; with Python's distinct keyword names, each named field takes its keyword's value |
| Users.UnknownKeywordsIgnored | models/user.py:44-48 | Keywords that name no preference field leave the user unchanged |
| Storage.FaultError | repository/task_repository.py:31-32 | Every store fault becomes the storage error "<context> failed: <cause>" |
| Storage.WriteErrorAsWritten | repository/task_repository.py:105-107 | As written, a connection failure in a task or goal write escapes as the unbound-variable error instead of a storage error |
| Storage.ConnectFailureEscapesAsWritten | repository/task_repository.py:79-107 | A concrete connection failure on save that does not come out as a storage error |
| Storage.Rewrap | services/task_service.py:27-30 | Storage errors pass unchanged; any other error becomes a storage error carrying its text |
| Storage.RewrapResult | services/task_service.py:104-110 | Successes pass unchanged, failures are rewrapped, and every failure is a storage error |
| Storage.DeleteKey | repository/task_repository.py:109-117 | The delete both repositories share: the id is removed, other rows are kept, an absent id leaves the table equal; a fault gives "<context> failed: <cause>" and changes nothing |
| Text.LStrip | repository/task_repository.py:67 | The result is a suffix of the input; only whitespace was removed; it does not start with whitespace |
| Text.RStrip | repository/task_repository.py:67 | The result is a prefix of the input; only whitespace was removed; it does not end with whitespace |
| Text.StripEmptyIffBlank | repository/task_repository.py:67 | A query strips to nothing exactly when it is all whitespace |
| Text.Strip | repository/task_repository.py:67 | The result starts and ends with a non-whitespace character unless it is empty |
| Text.LStripChar | ui/utils.py:18 | Every leading occurrence of the character is removed, and no more |
| Text.AsciiLower | repository/task_repository.py:68 | Case folding maps only ASCII upper-case letters |
| SqlLike.PercentMatchesAll | repository/task_repository.py:69 | "%" matches every text |
| SqlLike.EmptyMatchImpliesAll | repository/task_repository.py:69 | A non-empty pattern that matches the empty text matches every text |
| SqlLike.PrefixPattern | repository/task_repository.py:69 | For a query without wildcards, query followed by "%" matches exactly the texts it is an ASCII-case-insensitive prefix of |
| SqlLike.ContainsPatternIsSubstring | repository/task_repository.py:67-70 | For a query without wildcards, "%query%" matches exactly the texts containing the query as an ASCII-case-insensitive substring |
| SqlLike.UnderscoreQueryMatchesAnything | repository/task_repository.py:67-70 | Wildcards are not escaped: a search for "_" lists every task with a non-empty title |
| TaskRepository.TagOr | repository/task_repository.py:129-133 | NULL or empty tag gives the default; a known tag gives its member; an unknown tag is the enum's ValueError |
| TaskRepository.ToRow | repository/task_repository.py:86-102 | Every enumeration column holds a tag that decodes back to the task's value; the completion flag is non-zero exactly for a completed task; the update stamp is never NULL and keeps an existing stamp; due and creation stamps are written as they are |
| TaskRepository.RowToTask | repository/task_repository.py:119-137 | A row fails to read exactly when one of its enumeration columns holds an unknown tag; otherwise the task has the row's id, owner, title, due and completion stamps, completion flag from the column, no recurrence, both stamps present and stored stamps kept; the goal id as stored, description `or ""`, duration and progress `or 0`, and priority, type and status decoded from their tags or MEDIUM, FREE and CREATED when empty or NULL |
| TaskRepository.NullColumnsReadAsDefaults | repository/task_repository.py:119-137 | A row of NULLs reads as priority MEDIUM, type FREE, status CREATED, progress 0, duration 0, empty description, no due date |
| TaskRepository.UnknownTagIsAnError | repository/task_repository.py:129 | A priority tag no member carries makes the row unreadable with the enum's error text |
| TaskRepository.RowRoundTrip | repository/task_repository.py:86-137 | Writing a task's row and reading it back gives the task, except that the recurrence is lost and missing stamps come from the clocks |
| TaskRepository.GetById | repository/task_repository.py:17-32 | Absent id gives none; a fault or an unreadable row gives a storage error with the cause; otherwise the mapped row |
| TaskRepository.Save | repository/task_repository.py:77-107 | Upsert: the id maps to the task's row and every other row is kept; on a fault nothing is written |
| TaskRepository.Delete | repository/task_repository.py:109-117 | The shared delete of `Storage.DeleteKey` on the task table, its errors under the context "delete task" |
| TaskRepository.SaveThenGet | repository/task_repository.py:77-137 | After a save, a read of the id returns the task as persisted, and a stamped task without recurrence exactly |
| TaskRepository.SaveLeavesOthers | repository/task_repository.py:81-85 | Saving one task leaves every other id's read unchanged |
| TaskRepository.DeleteThenGet | repository/task_repository.py:109-117 | After a delete the id reads as none and every other id reads as before |
| TaskRepository.RowFilterIsTaskFilter | repository/task_repository.py:57-70 | The SQL filter on a row agrees with the same filter on the task it reads as |
| TaskRepository.SearchIsSubstring | repository/task_repository.py:67-70 | For a search without wildcards, the filter keeps a task exactly when its title or description contains the trimmed query, ASCII case ignored |
| TaskRepository.BlankSearchIsNoFilter | repository/task_repository.py:67 | An absent, empty or whitespace-only search applies no filter |
| TaskRepository.ListedBeforeIsTotalPreorder | repository/task_repository.py:71 | The three-key listing order is total and transitive |
| TaskRepository.Insert | repository/task_repository.py:71 | Inserting a key into a sorted distinct key list gives a sorted distinct list holding exactly the old keys and the new one |
| TaskRepository.SelectTasks | repository/task_repository.py:54-72 | The selected keys are distinct, are exactly the rows passing the filter, and are in listing order |
| TaskRepository.RowsToTasks | repository/task_repository.py:73 | Mapping succeeds exactly when every row is readable, and then yields each row's task in order |
| TaskRepository.ListedTasksMatch | repository/task_repository.py:54-73 | Every task read from a selected row passes the task-level filter |
| TaskRepository.ListedTasksInOrder | repository/task_repository.py:71-73 | Listed tasks are in due order, dated before undated; with creation stamps on every row, they follow the full three-key order |
| TaskRepository.GetAllByUser | repository/task_repository.py:34-75 | Sound and complete with respect to the filter, in listing order; a fault or an unreadable row gives a storage error; a healthy store with readable rows always succeeds |
| GoalRepository.TextOr | repository/goal_repository.py:99-101 | NULL and the empty string both read as the default, any other text as itself |
| GoalRepository.ToRow | repository/goal_repository.py:64-76 | Enumeration columns hold tags that decode back to the goal's values; the archived column is 0 or 1, and 0 exactly for an active goal |
| GoalRepository.RowToGoal | repository/goal_repository.py:93-107 | A row fails to read exactly when its category or frequency tag is unknown; otherwise the goal has the row's id, owner and title, a non-empty colour, a creation stamp (the stored one when present) and is archived exactly when the column is non-NULL and non-zero; description `or ""`, colour `or "#4CAF50"`, both streaks `or 0`, and category and frequency decoded from their tags or OTHER and DAILY when empty or NULL |
| GoalRepository.NullColumnsReadAsDefaults | repository/goal_repository.py:93-107 | A row of NULLs reads as category OTHER, colour #4CAF50, frequency DAILY, zero streaks, empty description, not archived, created now |
| GoalRepository.RowRoundTrip | repository/goal_repository.py:55-107 | Writing a goal's row and reading it back gives the goal, except that an empty colour becomes the default and a missing stamp comes from the clock |
| GoalRepository.GetById | repository/goal_repository.py:17-31 | Absent id gives none; a fault or an unreadable row gives a storage error; otherwise the mapped row |
| GoalRepository.Save | repository/goal_repository.py:55-81 | Upsert keyed by goal id, others kept; on a fault nothing is written |
| GoalRepository.Delete | repository/goal_repository.py:83-91 | The shared delete of `Storage.DeleteKey` on the goal table, its errors under the context "delete goal" |
| GoalRepository.SaveThenGet | repository/goal_repository.py:55-107 | After a save, reading the id returns the goal as persisted |
| GoalRepository.DeleteThenGet | repository/goal_repository.py:83-91 | After a delete the id reads as none and every other id reads as before |
| GoalRepository.RowsToGoals | repository/goal_repository.py:51 | Mapping succeeds exactly when every row is readable, and then yields each row's goal in order |
| GoalRepository.GetAllByUser | repository/goal_repository.py:33-53 | Distinct rows, exactly the user's rows (non-archived ones unless archived are asked for); a fault or unreadable row gives a storage error |
| GoalRepository.SavedGoalListedIffActive | repository/goal_repository.py:45-50 | A saved goal passes its owner's listing filter exactly when archived goals are included or it is not archived |
| UserRepository.KeyedRowIsUnique | repository/user_repository.py:68-77 | When every preference row sits under the key save gives it, a user has at most one preference row |
| UserRepository.PrefsFromRow | repository/user_repository.py:47-50 | A NULL or 0 flag reads as off; NULL or 0 minutes read as 15; sound and quiet hours are absent |
| UserRepository.GetPreferences | repository/user_repository.py:39-50 | No row for the user gives the defaults; otherwise the preferences of some row for the user, and in a keyed store those stored under its key |
| UserRepository.UserFromRow | repository/user_repository.py:28-35 | Name, email and preferences as found; student mode as the flag's truth; missing creation stamp from now |
| UserRepository.Lookup | repository/user_repository.py:17-37 | On a keyed store: a fault gives a storage error; otherwise the user exactly when its row exists, with its stored preferences |
| UserRepository.GetById | repository/user_repository.py:17-37 | A fault gives a storage error; the user is found exactly when its row exists; with no preference row the preferences are the defaults; on a keyed store the result is the lookup's |
| UserRepository.Save | repository/user_repository.py:52-84 | Both rows are written, the preference row under "pref_" + id; others kept; a fault writes neither; keyed stores stay keyed |
| UserRepository.UserToRow | repository/user_repository.py:56-66 | The user row carries the clock as its update stamp and reads back as the user when paired with the user's own preferences |
| UserRepository.PrefsToRow | repository/user_repository.py:68-77 | The preference row belongs to the user and reads back with the user's flag, and with its minutes unless those are 0 |
| UserRepository.SaveThenGet | repository/user_repository.py:52-84 | After a save, the user reads back with only the flag and minutes of its preferences kept; other users read as before |
| UserRepository.PlainUserRoundTrips | repository/user_repository.py:68-77 | A user with no sound, no quiet hours and non-zero minutes reads back exactly |
| TaskService.InitialStatus | services/task_service.py:84-90 | PENDING exactly when undated; TODAY exactly on the same date; OVERDUE exactly on an earlier date; UPCOMING exactly on a later date |
| TaskService.EarlierTodayIsToday | services/task_service.py:87-90 | A due time earlier today gives TODAY, not OVERDUE |
| TaskService.NewTask | services/task_service.py:83-103 | The given fields, the derived status, progress 0, not completed, no recurrence, both stamps now |
| TaskService.CreateTask | services/task_service.py:66-110 | The returned task is the new task and the store is the save of it; a fault gives the save's storage error |
| TaskService.CreateThenGet | services/task_service.py:83-106 | The created task reads back exactly as returned; other ids read as before; a fresh id adds one row |
| TaskService.Clamp | services/task_service.py:143-144 | The result lies in 0..100, equals the input inside it and the nearer bound outside it |
| TaskService.ApplyPatch | services/task_service.py:133-147 | Each supplied field overwrites its value, progress clamped; absent fields and the status are kept unless given; the update stamp is now; nothing else changes |
| TaskService.PatchIdempotent | services/task_service.py:133-147 | Applying a patch twice equals applying it once; the empty patch only moves the update stamp |
| TaskService.UpdateTask | services/task_service.py:112-154 | A read fault or an unreadable row gives the read's storage error unchanged; an absent id returns none and writes nothing; a present, readable task under a healthy store is always patched, saved under its id and returned; a write fault gives the save's error |
| TaskService.UpdateThenGet | services/task_service.py:148-150 | The updated task is what a later read returns |
| TaskService.CancelTask | services/task_service.py:175-177 | A present, readable task under a healthy store is always returned with status CANCELLED and a fresh stamp, and saved under its id; an absent id returns none; an unreadable row gives the wrapped read error; read and write faults give storage errors |
| TaskService.SetTaskRunning | services/task_service.py:179-181 | A present, readable task under a healthy store is always returned with status IN_PROGRESS and a fresh stamp, and saved under its id; an absent id returns none; an unreadable row gives the wrapped read error; read and write faults give storage errors |
| TaskService.CancelThenGet | services/task_service.py:175-177 | After a cancel, a later read returns the cancelled task; only status and update stamp differ from the stored task |
| TaskService.SetRunningThenGet | services/task_service.py:179-181 | After a start, a later read returns the task in progress; only status and update stamp differ from the stored task |
| TaskService.CompleteTask | services/task_service.py:156-173 | An absent id returns none; a present, readable task under a healthy store is always completed, saved and returned; faults and unreadable rows give storage errors |
| TaskService.CompleteThenGet | services/task_service.py:163-169 | A completed task reads back exactly as returned: completed, COMPLETED, at 100 percent |
| TaskService.DeleteTask | services/task_service.py:183-191 | Reports true whether or not the id existed and removes it; a fault gives the delete's storage error |
| TaskService.GetById | services/task_service.py:23-30 | The repository's result unchanged, errors included |
| TaskService.GetTasksForUser | services/task_service.py:32-64 | The repository's listing: one task per matching row, each read from a distinct row, every matching row listed, in due order with creation-time ties when every row is stamped, as many as the matching rows; errors unchanged |
| GoalService.GetById | services/goal_service.py:16-23 | The repository's result unchanged, errors included |
| GoalService.SaveGoal | services/goal_service.py:34-41 | The repository's save unchanged, errors included |
| GoalService.DeleteGoal | services/goal_service.py:43-50 | The repository's delete unchanged, errors included |
| GoalService.SaveGetDelete | services/goal_service.py:34-46 | Save then get yields the goal as persisted; delete then get yields none |
| GoalService.ArchivedGoalHidden | services/goal_service.py:25-28 | An archived goal is hidden from the default listing and shown when archived goals are included |
| GoalService.GetAllForUser | services/goal_service.py:25-32 | The repository's listing unchanged: one goal per listed row, each read from a distinct row by `RowToGoal`, every listed row present, as many goals as listed rows; archived goals excluded by default; faults give storage errors |
| UserService.DefaultUser | services/user_service.py:30-35 | Id "default_user", name "User", email "user@local", student mode off, default preferences |
| UserService.GetOrCreateDefaultUser | services/user_service.py:16-37 | An existing default user is returned as read from its row, with the store unchanged (on a keyed store, exactly the lookup's user); otherwise the default user is saved and returned; afterwards the store has the default user |
| UserService.CallTwice | services/user_service.py:16-37 | After a successful first call, a second call with a healthy read succeeds, returns the default user again and leaves the store as the first call left it, whose user ids are the old ones plus the default id |
| UserService.CreatedUserReadsBack | services/user_service.py:30-37 | The created default user reads back exactly |
| Colors.HexDigit | ui/utils.py:19 | Digit values lie in 0..15, and digits are never whitespace, signs, underscores or the prefix letter |
| Colors.Groups | ui/utils.py:19 | A base-16 numeral of n characters, underscores included, has a value below 16^n and ends in a digit |
| Colors.IntLStrip | ui/utils.py:19 | The result is a suffix of the input after only `int()` whitespace, and does not start with any |
| Colors.IntRStrip | ui/utils.py:19 | The result is a prefix of the input followed only by `int()` whitespace, and does not end with any |
| Colors.IntTrim | ui/utils.py:19 | The result is no longer than the input and has no `int()` whitespace at either end |
| Colors.ParseHex | ui/utils.py:19 | Text that trims to nothing does not convert; a converted value of an n-character text lies strictly between -16^n and 16^n |
| Colors.Slice | ui/utils.py:19 | Slices are at most two characters, the pair itself when in range and empty past the end |
| Colors.SliceValueBound | ui/utils.py:19 | A slice of at most two characters converts to a value strictly between -256 and 256 |
| Colors.HexToRgb | ui/utils.py:16-19 | Four or fewer characters after the leading "#"s fail; every converted component lies strictly between -256 and 256 |
| Colors.PairValue | ui/utils.py:19 | Two hex digits read as their byte value, within 0..255 |
| Colors.SixDigits | ui/utils.py:16-19 | "#" and six hex digits read as the three digit-pair bytes, each within 0..255, and anything after them is ignored |
| Colors.ShortInputFails | ui/utils.py:16-19 | Four or fewer characters after the leading "#"s always fail |
| Colors.FiveDigits | ui/utils.py:16-19 | Five hex digits still convert, the last component from one digit |
| Colors.NegatedDigit | ui/utils.py:19 | A sign and a digit convert, so a component can be negative |
| Colors.PaddedDigit | ui/utils.py:19 | A character `int()` counts as whitespace, followed by a digit, converts to the digit |
| Colors.SeparatorIsNotPadding | ui/utils.py:19 | An information separator U+001C..U+001F counts as whitespace for `str.isspace`, yet in place of the first digit it makes the conversion fail |
| Colors.ThreePairs | ui/utils.py:18-19 | After one "#", the components are the pairs at offsets 0, 2 and 4, each read on its own |
| Colors.FormatRoundTrip | ui/utils.py:16-19 | Converting the "#rrggbb" text of three bytes gives back the three bytes |
| Colors.DefaultGoalColor | ui/utils.py:16-19 | The default goal colour #4CAF50 converts to (76, 175, 80) |

## Left out

- `datetime.now()` and `uuid.uuid4()` are parameters. One `now` stands for every clock reading
  of a call. The model therefore does not show that `complete()` reads the clock twice, or that
  `update_task` stamps a different instant from the one its read used.
- Timestamps are abstract instants. The ISO text encoding, `date()` parsing and time zones are
  not modelled.
- SQLite itself, the connection and the schema script (`repository/database.py`) are not part
  of this model. Store failures are the three `Storage.Fault` outcomes.
- `UserRepository.GetById`: in the source, a fault on the preference query after the user row
  was read also gives "get_by_id failed". The model has one fault per call, so it does not
  separate the two statements.
- Python `int()` also accepts non-ASCII decimal digits, which `Colors.ParseHex` does not model.
- Colors.ParseHex: its own contract states only that blank text fails and bounds the value. What
  it accepts is stated digit by digit in `Colors.PairValue`, `Colors.NegatedDigit` and
  `Colors.PaddedDigit`, not as one characterisation of Python's base-16 grammar.
- `TaskRepository.InvalidValueText`: the quotes of Python's `repr` are not escaped in the
  error text.
- `Goals.CompletionRate`: computed with exact rationals rather than binary floating point.
- Users.SetAttr: values are typed. The requires excludes a value of the wrong type for a known
  field, such as `enabled="yes"`, which `setattr` would store as given.
- `Users.UpdatePreferences`: values are typed. The requires excludes a value of the wrong type
  for a known field, which Python would store as given. Dunder names, which `hasattr` also
  finds, count as unknown keywords.
- The UI (screens, wizards, presenters, theme) and the gradient functions of `ui/utils.py` are
  not modelled. Goal aggregates (active count, streak sum) live in the presenter, which is not
  part of this model.
- `models/reminder.py` has no behaviour; `main.py` and the package `__init__` files are
  bootstrap code.
- `SqlLike.ContainsPatternIsSubstring`: the substring reading is proved only for queries
  without `%` or `_`. Queries that contain them are covered by `SqlLike.Like` itself and by
  `SqlLike.UnderscoreQueryMatchesAnything`.
- `TaskRepository.ListedTasksInOrder`: the full three-key order is stated only when every row
  has a creation stamp. A NULL `created_at` sorts first in SQL, but reading it back stamps it
  with now.

## Findings

| source | as written | input that shows it | evidently intended | confidence | as-written member | corrected member |
|---|---|---|---|---|---|---|
| repository/task_repository.py:105-107 | the handler calls `conn.rollback()` before wrapping, and `conn` is unbound when `connect()` itself raised; the same holds for `delete` and for both goal writes | a save while the database cannot be opened: `connect()` raises `DatabaseError("Failed to connect to database: ...")` and the handler raises `UnboundLocalError` instead of "save task failed: ..." | every failure surfaces as "<context> failed: <cause>", as the user repository achieves by guarding its rollback with `except NameError` | not executed | Storage.WriteErrorAsWritten | Storage.FaultError |

=== FILE: colors.dfy ===
/** `hex_to_rgb` of the UI helpers, with the base-16 `int()` conversion it relies on. */
module Colors {
  import opened Wrappers
  import opened Text
  import Goals

  /** The value of an ASCII hexadecimal digit of either case. */
  function HexDigit(c: char): (r: Option<int>)
    ensures r.Some? ==> 0 <= r.value < 16
    ensures r.Some? ==> !IsSpace(c) && c != '_' && c != '+' && c != '-' && c != 'x' && c != 'X'
  {
    if '0' <= c <= '9' then Some(c as int - '0' as int)
    else if 'a' <= c <= 'f' then Some(c as int - 'a' as int + 10)
    else if 'A' <= c <= 'F' then Some(c as int - 'A' as int + 10)
    else None
  }

  /** `16 ^ n`, the bound on the value of an `n`-character numeral. */
  function Pow16(n: nat): (p: nat)
    ensures p >= 1
  {
    if n == 0 then 1 else 16 * Pow16(n - 1)
  }

  lemma {:induction false} Pow16Mono(a: nat, b: nat)
    requires a <= b
    ensures Pow16(a) <= Pow16(b)
    decreases b
  {
    if a < b {
      Pow16Mono(a, b - 1);
    }
  }

  /**
   * The characters `int()` skips around a numeral. An all-ASCII text is scanned with the C
   * locale's `isspace`, which knows only tab to carriage return and the space; other characters
   * count when `str.isspace` says so. The four separators U+001C..U+001F, which `str.isspace`
   * accepts, are therefore not skipped.
   */
  predicate IntSpace(c: char) {
    IsSpace(c) && !(0x1C <= c as int <= 0x1F)
  }

  /** Leading `int()` whitespace removed. */
  function IntLStrip(s: string): (r: string)
    ensures |r| <= |s| && r == s[|s| - |r|..]
    ensures forall k :: 0 <= k < |s| - |r| ==> IntSpace(s[k])
    ensures |r| > 0 ==> !IntSpace(r[0])
  {
    if |s| > 0 && IntSpace(s[0]) then IntLStrip(s[1..]) else s
  }

  /** Trailing `int()` whitespace removed. */
  function IntRStrip(s: string): (r: string)
    ensures |r| <= |s| && r == s[..|r|]
    ensures forall k :: |r| <= k < |s| ==> IntSpace(s[k])
    ensures |r| > 0 ==> !IntSpace(r[|r| - 1])
  {
    if |s| > 0 && IntSpace(s[|s| - 1]) then IntRStrip(s[..|s| - 1]) else s
  }

  /** The text `int()` reads a numeral from: `int()` whitespace removed at both ends. */
  function IntTrim(s: string): (r: string)
    ensures |r| <= |s|
    ensures |r| > 0 ==> !IntSpace(r[0]) && !IntSpace(r[|r| - 1])
  {
    IntRStrip(IntLStrip(s))
  }

  /**
   * Digits each optionally preceded by one underscore, read as a base-16 numeral; `None`
   * when some character is neither, two underscores meet or an underscore ends the text.
   */
  function Groups(s: string): (r: Option<nat>)
    ensures r.Some? ==> r.value < Pow16(|s|)
    ensures |s| > 0 && r.Some? ==> HexDigit(s[|s| - 1]).Some?
    decreases |s|
  {
    if |s| == 0 then Some(0)
    else
      var d :- HexDigit(s[|s| - 1]);
      var init := s[..|s| - 1];
      var rest := if |init| > 0 && init[|init| - 1] == '_' then init[..|init| - 1] else init;
      var v :- Groups(rest);
      Pow16Mono(|rest|, |s| - 1);
      Some(v * 16 + d)
  }

  /**
   * `int(s, 16)`: surrounding whitespace, one sign, an optional `0x`/`0X` prefix that may be
   * followed by one underscore, then at least one digit with single underscores between digits.
   */
  function ParseHex(s: string): (r: Option<int>)
    ensures IntTrim(s) == "" ==> r.None?
    ensures r.Some? ==> -(Pow16(|s|) as int) < r.value < Pow16(|s|)
  {
    var t := IntTrim(s);
    if |t| == 0 then None
    else
      var negative := t[0] == '-';
      var unsigned := if t[0] == '-' || t[0] == '+' then t[1..] else t;
      var prefixed := |unsigned| >= 2 && unsigned[0] == '0' && (unsigned[1] == 'x' || unsigned[1] == 'X');
      var body :=
        if prefixed then (if |unsigned| > 2 && unsigned[2] == '_' then unsigned[3..] else unsigned[2..])
        else unsigned;
      if |body| == 0 || body[0] == '_' then None
      else
        var v :- Groups(body);
        Pow16Mono(|body|, |s|);
        Some(if negative then -(v as int) else v)
  }

  /** A slice of at most two characters converts to a value strictly between -256 and 256. */
  lemma SliceValueBound(x: string)
    requires |x| <= 2
    ensures ParseHex(x).Some? ==> -256 < ParseHex(x).value < 256
  {
    Pow16Mono(|x|, 2);
    assert Pow16(2) == 256;
  }

  /** `h[i : i + 2]` with Python's clamping of slice bounds. */
  function Slice(h: string, i: nat): (r: string)
    ensures |r| <= 2
    ensures i + 2 <= |h| ==> r == h[i..i + 2]
    ensures |h| <= i ==> r == ""
  {
    var lo := if i <= |h| then i else |h|;
    var hi := if i + 2 <= |h| then i + 2 else |h|;
    h[lo..hi]
  }

  /** `hex_to_rgb`: leading `#`s dropped, then the slices at 0, 2 and 4 each read with `int(_, 16)`; `None` is the `ValueError`. */
  function HexToRgb(s: string): (c: Option<(int, int, int)>)
    ensures |LStripChar(s, '#')| <= 4 ==> c.None?
    ensures c.Some? ==> -256 < c.value.0 < 256 && -256 < c.value.1 < 256 && -256 < c.value.2 < 256
  {
    var h := LStripChar(s, '#');
    var r :- ParseHex(Slice(h, 0));
    var g :- ParseHex(Slice(h, 2));
    var b :- ParseHex(Slice(h, 4));
    SliceValueBound(Slice(h, 0));
    SliceValueBound(Slice(h, 2));
    SliceValueBound(Slice(h, 4));
    Some((r, g, b))
  }

  /** Text with no `int()` whitespace at either end trims to itself. */
  lemma TrimPlain(s: string)
    requires |s| > 0 ==> !IntSpace(s[0]) && !IntSpace(s[|s| - 1])
    ensures IntTrim(s) == s
  {
  }

  /** One digit reads as its value. */
  lemma DigitGroup(a: char)
    requires HexDigit(a).Some?
    ensures Groups([a]) == Some(HexDigit(a).value)
  {
    assert [a][..0] == [];
  }

  /** Two hex digits read as one byte. */
  lemma PairValue(a: char, b: char)
    requires HexDigit(a).Some? && HexDigit(b).Some?
    ensures ParseHex([a, b]) == Some(16 * HexDigit(a).value + HexDigit(b).value)
    ensures 0 <= 16 * HexDigit(a).value + HexDigit(b).value < 256
  {
    var s := [a, b];
    TrimPlain(s);
    assert s[..1] == [a];
    DigitGroup(a);
    assert Groups(s) == Some(16 * HexDigit(a).value + HexDigit(b).value);
  }

  predicate AllHex(h: string) {
    forall k :: 0 <= k < |h| ==> HexDigit(h[k]).Some?
  }

  function Byte(h: string, i: nat): int
    requires i + 2 <= |h| && AllHex(h)
  {
    16 * HexDigit(h[i]).value + HexDigit(h[i + 1]).value
  }

  /** After one `#`, the components are what the three slices convert to. */
  lemma SlicesConvert(x: string, a: int, b: int, c: int)
    requires |x| > 0 && x[0] != '#'
    requires ParseHex(Slice(x, 0)) == Some(a) && ParseHex(Slice(x, 2)) == Some(b) && ParseHex(Slice(x, 4)) == Some(c)
    ensures HexToRgb("#" + x) == Some((a, b, c))
  {
    OneHash(x);
  }

  /** Six digits and whatever follows them: the three slices read as the three bytes. */
  lemma SixReads(h: string, rest: string)
    requires |h| == 6 && AllHex(h)
    ensures |h + rest| > 0 && (h + rest)[0] != '#'
    ensures ParseHex(Slice(h + rest, 0)) == Some(Byte(h, 0))
    ensures ParseHex(Slice(h + rest, 2)) == Some(Byte(h, 2))
    ensures ParseHex(Slice(h + rest, 4)) == Some(Byte(h, 4))
  {
    assert (h + rest)[0] == h[0];
    DigitIsNotHash(h[0]);
    SliceByte(h + rest, h, 0);
    SliceByte(h + rest, h, 2);
    SliceByte(h + rest, h, 4);
  }

  /** No hex digit is a `#`, so the digits after a single `#` are not stripped with it. */
  lemma DigitIsNotHash(c: char)
    requires HexDigit(c).Some?
    ensures c != '#'
  {
  }

  /** A slice holding the digit pair of `h` at `i` reads as the byte of `h` at `i`. */
  lemma SliceByte(x: string, h: string, i: nat)
    requires i + 2 <= |h| && AllHex(h) && i + 2 <= |x| && x[i] == h[i] && x[i + 1] == h[i + 1]
    ensures ParseHex(Slice(x, i)) == Some(Byte(h, i))
  {
    assert Slice(x, i) == [h[i], h[i + 1]];
    PairByte(h, i);
  }

  /** `#RRGGBB` in hex digits reads as three bytes, one per digit pair, and anything after the sixth digit is ignored. */
  lemma SixDigits(h: string, rest: string)
    requires |h| == 6 && AllHex(h)
    ensures HexToRgb("#" + h + rest) == Some((Byte(h, 0), Byte(h, 2), Byte(h, 4)))
    ensures 0 <= Byte(h, 0) < 256 && 0 <= Byte(h, 2) < 256 && 0 <= Byte(h, 4) < 256
  {
    assert "#" + h + rest == "#" + (h + rest);
    SixReads(h, rest);
    SlicesConvert(h + rest, Byte(h, 0), Byte(h, 2), Byte(h, 4));
    PairByte(h, 0);
    PairByte(h, 2);
    PairByte(h, 4);
  }

  /** The digit pair at `i` reads as the byte at `i`. */
  lemma PairByte(h: string, i: nat)
    requires i + 2 <= |h| && AllHex(h)
    ensures ParseHex([h[i], h[i + 1]]) == Some(Byte(h, i))
    ensures 0 <= Byte(h, i) < 256
  {
    PairValue(h[i], h[i + 1]);
  }

  /** Fewer than five characters after the `#`s always raise: the third slice is empty. */
  lemma ShortInputFails(s: string)
    requires |LStripChar(s, '#')| <= 4
    ensures HexToRgb(s).None?
  {
    var h := LStripChar(s, '#');
    if ParseHex(Slice(h, 0)).Some? && ParseHex(Slice(h, 2)).Some? {
      assert Slice(h, 4) == "";
      assert IntTrim("") == "";
    }
  }

  /** After one `#`, text that does not start with another is what the slices are taken from. */
  lemma OneHash(h: string)
    requires |h| > 0 && h[0] != '#'
    ensures LStripChar("#" + h, '#') == h
  {
    assert ("#" + h)[1..] == h;
  }

  /** Five digits still convert: the last slice holds one digit. */
  lemma FiveDigits(h: string)
    requires |h| == 5 && AllHex(h)
    ensures HexToRgb("#" + h) == Some((Byte(h, 0), Byte(h, 2), HexDigit(h[4]).value))
  {
    FiveReads(h);
    SlicesConvert(h, Byte(h, 0), Byte(h, 2), HexDigit(h[4]).value);
  }

  /** Five digits: two slices read as bytes and the last as its single digit. */
  lemma FiveReads(h: string)
    requires |h| == 5 && AllHex(h)
    ensures h[0] != '#'
    ensures ParseHex(Slice(h, 0)) == Some(Byte(h, 0))
    ensures ParseHex(Slice(h, 2)) == Some(Byte(h, 2))
    ensures ParseHex(Slice(h, 4)) == Some(HexDigit(h[4]).value)
  {
    DigitIsNotHash(h[0]);
    SliceByte(h, h, 0);
    SliceByte(h, h, 2);
    LastSlice(h);
  }

  /** The slice at 4 of five digits is the last digit alone. */
  lemma LastSlice(h: string)
    requires |h| == 5 && AllHex(h)
    ensures ParseHex(Slice(h, 4)) == Some(HexDigit(h[4]).value)
  {
    assert Slice(h, 4) == [h[4]];
    LoneDigit(h[4]);
  }

  /** A single hex digit reads as its value. */
  lemma LoneDigit(a: char)
    requires HexDigit(a).Some?
    ensures ParseHex([a]) == Some(HexDigit(a).value)
  {
    TrimPlain([a]);
    DigitGroup(a);
  }

  /** A sign in place of the first digit is accepted, so a component can be negative. */
  lemma NegatedDigit(a: char)
    requires HexDigit(a).Some?
    ensures ParseHex(['-', a]) == Some(-HexDigit(a).value)
  {
    TrimPlain(['-', a]);
    assert ['-', a][1..] == [a];
    DigitGroup(a);
  }

  /** `int()` whitespace in place of the first digit is stripped away. */
  lemma PaddedDigit(c: char, a: char)
    requires IntSpace(c) && HexDigit(a).Some?
    ensures ParseHex([c, a]) == Some(HexDigit(a).value)
  {
    assert [c, a][1..] == [a];
    assert IntLStrip([c, a]) == IntLStrip([a]);
    TrimPlain([a]);
    DigitGroup(a);
  }

  /**
   * An information separator (U+001C..U+001F) counts as whitespace for `str.strip` but not for
   * `int()`: in place of the first digit it makes the conversion fail.
   */
  lemma SeparatorIsNotPadding(c: char, a: char)
    requires 0x1C <= c as int <= 0x1F && HexDigit(a).Some?
    ensures IsSpace(c) && ParseHex([c, a]).None?
  {
    TrimPlain([c, a]);
    assert [c, a][..1] == [c];
  }

  /** Six characters after a single `#`: the three components are the three pairs, read independently. */
  lemma ThreePairs(x: string, a: int, b: int, c: int)
    requires |x| == 6 && x[0] != '#'
    requires ParseHex(x[0..2]) == Some(a) && ParseHex(x[2..4]) == Some(b) && ParseHex(x[4..6]) == Some(c)
    ensures HexToRgb("#" + x) == Some((a, b, c))
  {
    OneHash(x);
  }

  /** The lower-case digit for 0..15. */
  function DigitChar(n: int): (c: char)
    requires 0 <= n < 16
    ensures HexDigit(c) == Some(n)
  {
    if n < 10 then ('0' as int + n) as char else ('a' as int + n - 10) as char
  }

  /** `#rrggbb` for three bytes, the form the UI's colours take. */
  function FormatHex(r: int, g: int, b: int): (s: string)
    requires 0 <= r < 256 && 0 <= g < 256 && 0 <= b < 256
    ensures |s| == 7 && s[0] == '#' && AllHex(s[1..])
  {
    "#" + [DigitChar(r / 16), DigitChar(r % 16), DigitChar(g / 16), DigitChar(g % 16), DigitChar(b / 16), DigitChar(b % 16)]
  }

  /** The two digits `FormatHex` writes for a byte read back as that byte. */
  lemma DigitPair(n: int)
    requires 0 <= n < 256
    ensures 16 * HexDigit(DigitChar(n / 16)).value + HexDigit(DigitChar(n % 16)).value == n
  {
  }

  /** `hex_to_rgb` inverts `FormatHex`. */
  lemma FormatRoundTrip(r: int, g: int, b: int)
    requires 0 <= r < 256 && 0 <= g < 256 && 0 <= b < 256
    ensures HexToRgb(FormatHex(r, g, b)) == Some((r, g, b))
  {
    var h := [DigitChar(r / 16), DigitChar(r % 16), DigitChar(g / 16), DigitChar(g % 16), DigitChar(b / 16), DigitChar(b % 16)];
    assert FormatHex(r, g, b) == "#" + h;
    assert "#" + h == "#" + h + "";
    SixDigits(h, "");
    DigitPair(r);
    DigitPair(g);
    DigitPair(b);
    assert Byte(h, 0) == r && Byte(h, 2) == g && Byte(h, 4) == b;
  }

  /** A goal's default colour is (76, 175, 80). */
  lemma DefaultGoalColor()
    ensures HexToRgb(Goals.DefaultColor) == Some((76, 175, 80))
  {
    var h := ['4', 'C', 'A', 'F', '5', '0'];
    assert Goals.DefaultColor == "#" + h + "";
    assert AllHex(h);
    SixDigits(h, "");
  }
}

=== FILE: enums.dfy ===
/**
 * The closed tag sets of the domain. Every enumeration except `DayOfWeek` is stored as
 * its lower-case string tag; `DayOfWeek` carries the integers 0 (Monday) to 6 (Sunday).
 * Each `ParseX` is Python's lookup by value, `X(value)`, which raises on an unknown tag.
 */
module Enums {
  import opened Wrappers

  datatype Priority = Low | Medium | High | Urgent

  function PriorityTag(p: Priority): string {
    match p
    case Low => "low"
    case Medium => "medium"
    case High => "high"
    case Urgent => "urgent"
  }

  function ParsePriority(s: string): (r: Option<Priority>)
    ensures r.Some? ==> PriorityTag(r.value) == s
    ensures forall p :: PriorityTag(p) == s ==> r == Some(p)
  {
    if s == "low" then Some(Low)
    else if s == "medium" then Some(Medium)
    else if s == "high" then Some(High)
    else if s == "urgent" then Some(Urgent)
    else None
  }

  datatype TaskType = Free | GoalLinked | Assignment | Exam | StudySession

  function TaskTypeTag(t: TaskType): string {
    match t
    case Free => "free"
    case GoalLinked => "goal"
    case Assignment => "assignment"
    case Exam => "exam"
    case StudySession => "study_session"
  }

  function ParseTaskType(s: string): (r: Option<TaskType>)
    ensures r.Some? ==> TaskTypeTag(r.value) == s
    ensures forall t :: TaskTypeTag(t) == s ==> r == Some(t)
  {
    if s == "free" then Some(Free)
    else if s == "goal" then Some(GoalLinked)
    else if s == "assignment" then Some(Assignment)
    else if s == "exam" then Some(Exam)
    else if s == "study_session" then Some(StudySession)
    else None
  }

  /** Task lifecycle status. `Rejected` is a synonym for cancellation in the views, but it is stored under its own tag. */
  datatype TaskStatus =
    | Created | Scheduled | Pending | Upcoming | Today | Overdue
    | InProgress | Paused | Completed | Cancelled | Snoozed | Rejected

  function TaskStatusTag(s: TaskStatus): string {
    match s
    case Created => "created"
    case Scheduled => "scheduled"
    case Pending => "pending"
    case Upcoming => "upcoming"
    case Today => "today"
    case Overdue => "overdue"
    case InProgress => "in_progress"
    case Paused => "paused"
    case Completed => "completed"
    case Cancelled => "cancelled"
    case Snoozed => "snoozed"
    case Rejected => "rejected"
  }

  function ParseTaskStatus(s: string): (r: Option<TaskStatus>)
    ensures r.Some? ==> TaskStatusTag(r.value) == s
    ensures forall t :: TaskStatusTag(t) == s ==> r == Some(t)
  {
    if s == "created" then Some(Created)
    else if s == "scheduled" then Some(Scheduled)
    else if s == "pending" then Some(Pending)
    else if s == "upcoming" then Some(Upcoming)
    else if s == "today" then Some(Today)
    else if s == "overdue" then Some(Overdue)
    else if s == "in_progress" then Some(InProgress)
    else if s == "paused" then Some(Paused)
    else if s == "completed" then Some(Completed)
    else if s == "cancelled" then Some(Cancelled)
    else if s == "snoozed" then Some(Snoozed)
    else if s == "rejected" then Some(Rejected)
    else None
  }

  /** The statuses in declaration order. */
  function AllStatuses(): seq<TaskStatus> {
    [Created, Scheduled, Pending, Upcoming, Today, Overdue,
     InProgress, Paused, Completed, Cancelled, Snoozed, Rejected]
  }

  /** There are exactly twelve statuses, each with its own stored tag; `rejected` is not `cancelled`. */
  lemma TwelveDistinctStatuses()
    ensures |AllStatuses()| == 12
    ensures forall s :: s in AllStatuses()
    ensures forall i, j :: 0 <= i < j < 12 ==> TaskStatusTag(AllStatuses()[i]) != TaskStatusTag(AllStatuses()[j])
    ensures TaskStatusTag(Rejected) == "rejected" && TaskStatusTag(Rejected) != TaskStatusTag(Cancelled)
  {
    forall s: TaskStatus
      ensures s in AllStatuses()
    {
      match s
      case Created =>
      case Scheduled =>
      case Pending =>
      case Upcoming =>
      case Today =>
      case Overdue =>
      case InProgress =>
      case Paused =>
      case Completed =>
      case Cancelled =>
      case Snoozed =>
      case Rejected =>
    }
  }

  datatype RecurrenceType = Daily | Weekly | Monthly | Yearly

  function RecurrenceTypeTag(t: RecurrenceType): string {
    match t
    case Daily => "daily"
    case Weekly => "weekly"
    case Monthly => "monthly"
    case Yearly => "yearly"
  }

  function ParseRecurrenceType(s: string): (r: Option<RecurrenceType>)
    ensures r.Some? ==> RecurrenceTypeTag(r.value) == s
    ensures forall t :: RecurrenceTypeTag(t) == s ==> r == Some(t)
  {
    if s == "daily" then Some(Daily)
    else if s == "weekly" then Some(Weekly)
    else if s == "monthly" then Some(Monthly)
    else if s == "yearly" then Some(Yearly)
    else None
  }

  datatype DayOfWeek = Monday | Tuesday | Wednesday | Thursday | Friday | Saturday | Sunday

  /** The integer value of a weekday, Monday = 0 through Sunday = 6. */
  function DayValue(d: DayOfWeek): int {
    match d
    case Monday => 0
    case Tuesday => 1
    case Wednesday => 2
    case Thursday => 3
    case Friday => 4
    case Saturday => 5
    case Sunday => 6
  }

  function ParseDayOfWeek(n: int): (r: Option<DayOfWeek>)
    ensures r.Some? <==> 0 <= n <= 6
    ensures r.Some? ==> DayValue(r.value) == n
    ensures forall d :: DayValue(d) == n ==> r == Some(d)
  {
    if n == 0 then Some(Monday)
    else if n == 1 then Some(Tuesday)
    else if n == 2 then Some(Wednesday)
    else if n == 3 then Some(Thursday)
    else if n == 4 then Some(Friday)
    else if n == 5 then Some(Saturday)
    else if n == 6 then Some(Sunday)
    else None
  }

  datatype ReminderType = Push | Email | InApp

  function ReminderTypeTag(t: ReminderType): string {
    match t
    case Push => "push"
    case Email => "email"
    case InApp => "in_app"
  }

  function ParseReminderType(s: string): (r: Option<ReminderType>)
    ensures r.Some? ==> ReminderTypeTag(r.value) == s
    ensures forall t :: ReminderTypeTag(t) == s ==> r == Some(t)
  {
    if s == "push" then Some(Push)
    else if s == "email" then Some(Email)
    else if s == "in_app" then Some(InApp)
    else None
  }

  datatype GoalCategory = Health | Work | Learning | Personal | Other

  function GoalCategoryTag(c: GoalCategory): string {
    match c
    case Health => "health"
    case Work => "work"
    case Learning => "learning"
    case Personal => "personal"
    case Other => "other"
  }

  function ParseGoalCategory(s: string): (r: Option<GoalCategory>)
    ensures r.Some? ==> GoalCategoryTag(r.value) == s
    ensures forall c :: GoalCategoryTag(c) == s ==> r == Some(c)
  {
    if s == "health" then Some(Health)
    else if s == "work" then Some(Work)
    else if s == "learning" then Some(Learning)
    else if s == "personal" then Some(Personal)
    else if s == "other" then Some(Other)
    else None
  }

  datatype FrequencyType = EveryDay | EveryWeek | EveryMonth

  function FrequencyTypeTag(f: FrequencyType): string {
    match f
    case EveryDay => "daily"
    case EveryWeek => "weekly"
    case EveryMonth => "monthly"
  }

  function ParseFrequencyType(s: string): (r: Option<FrequencyType>)
    ensures r.Some? ==> FrequencyTypeTag(r.value) == s
    ensures forall f :: FrequencyTypeTag(f) == s ==> r == Some(f)
  {
    if s == "daily" then Some(EveryDay)
    else if s == "weekly" then Some(EveryWeek)
    else if s == "monthly" then Some(EveryMonth)
    else None
  }

  /** `Priority` has exactly the four tags low, medium, high, urgent; `FrequencyType` exactly daily, weekly, monthly. */
  lemma PriorityAndFrequencyTagSets()
    ensures forall s :: ParsePriority(s).Some? <==> s in {"low", "medium", "high", "urgent"}
    ensures forall s :: ParseFrequencyType(s).Some? <==> s in {"daily", "weekly", "monthly"}
  {
  }
}

=== FILE: goal.dfy ===
/** The goal entity: archiving, streak counters and the completion rate. */
module Goals {
  import opened Wrappers
  import opened Timestamps
  import opened Enums

  /** The colour a goal gets when none is chosen. */
  const DefaultColor: string := "#4CAF50"

  /** A goal record with the dataclass defaults; `createdAt` is filled by `PostInit`. */
  datatype Goal = Goal(
    goalId: string,
    userId: string,
    title: string,
    description: string := "",
    category: GoalCategory := Other,
    colorHex: string := DefaultColor,
    frequency: FrequencyType := EveryDay,
    createdAt: Option<Instant> := None,
    isArchived: bool := false,
    currentStreak: int := 0,
    longestStreak: int := 0)

  /** `__post_init__`: a missing creation stamp is taken from the clock; nothing else changes. */
  function PostInit(g: Goal, now: Instant): (r: Goal)
    ensures r.createdAt.Some?
    ensures g.createdAt.Some? ==> r.createdAt == g.createdAt
    ensures g.createdAt.None? ==> r.createdAt == Some(now)
    ensures r.(createdAt := g.createdAt) == g
  {
    g.(createdAt := Some(g.createdAt.GetOr(now)))
  }

  /** `archive()`: a soft delete that only raises the archived flag. */
  function Archive(g: Goal): (r: Goal)
    ensures r.isArchived
    ensures r.(isArchived := g.isArchived) == g
  {
    g.(isArchived := true)
  }

  /** Archiving an archived goal changes nothing. */
  lemma ArchiveIdempotent(g: Goal)
    ensures Archive(Archive(g)) == Archive(g)
    ensures g.isArchived ==> Archive(g) == g
  {
  }

  /** `update_streak`: the current streak is overwritten; the longest one only ever rises. */
  function UpdateStreak(g: Goal, newCurrent: int, newLongest: Option<int> := None): (r: Goal)
    ensures r.currentStreak == newCurrent
    ensures r.longestStreak >= g.longestStreak
    ensures newLongest.Some? ==> r.longestStreak >= newLongest.value
    ensures r.longestStreak == g.longestStreak || (newLongest.Some? && r.longestStreak == newLongest.value)
    ensures r.(currentStreak := g.currentStreak, longestStreak := g.longestStreak) == g
  {
    var longest := if newLongest.Some? && newLongest.value > g.longestStreak then newLongest.value else g.longestStreak;
    g.(currentStreak := newCurrent, longestStreak := longest)
  }

  /** Without a new longest value, the longest streak stays put even when the current streak overtakes it. */
  lemma StreakWithoutLongestKeepsLongest(g: Goal, newCurrent: int)
    ensures UpdateStreak(g, newCurrent).longestStreak == g.longestStreak
  {
  }

  /** The documented examples: a longest streak of 5 survives an update to 2 and is raised by an update to 7. */
  lemma StreakExamples(g: Goal)
    requires g.longestStreak == 5
    ensures UpdateStreak(g, 3, Some(2)).longestStreak == 5
    ensures UpdateStreak(g, 3, Some(7)).longestStreak == 7
  {
  }

  function MinReal(a: real, b: real): real {
    if a <= b then a else b
  }

  /** `calculate_completion_rate`, in exact arithmetic: zero when nothing is scheduled, otherwise the ratio capped at 1. */
  function CompletionRate(completed: int, scheduled: int): (r: real)
    ensures scheduled <= 0 ==> r == 0.0
    ensures r <= 1.0
    ensures scheduled > 0 && completed >= 0 ==> 0.0 <= r
    ensures scheduled > 0 ==> (r == 1.0 <==> completed >= scheduled)
    ensures scheduled > 0 && completed < scheduled ==> r * scheduled as real == completed as real
  {
    if scheduled <= 0 then 0.0 else MinReal(1.0, completed as real / scheduled as real)
  }
}

=== FILE: goal_repository.dfy ===
/** The goal table and its gateway: lookup, listing by owner, upsert, delete and row mapping. */
module GoalRepository {
  import opened Wrappers
  import opened Timestamps
  import opened Enums
  import opened Goals
  import opened Storage
  import TaskRepository

  /** One row of the `goal` table, keyed by `goal_id` in `GoalTable`; nullable columns are optional. */
  datatype GoalRow = GoalRow(
    userId: string,
    title: string,
    description: Option<string>,
    category: Option<string>,
    colorHex: Option<string>,
    frequencyType: Option<string>,
    createdAt: Option<Instant>,
    isArchived: Option<int>,
    currentStreak: Option<int>,
    longestStreak: Option<int>)

  type GoalTable = map<string, GoalRow>

  /** The column values `save` writes for a goal: enumeration columns hold tags that decode back, and the archived flag is 0 or 1. */
  function ToRow(g: Goal): (r: GoalRow)
    ensures r.category.Some? && ParseGoalCategory(r.category.value) == Some(g.category)
    ensures r.frequencyType.Some? && ParseFrequencyType(r.frequencyType.value) == Some(g.frequency)
    ensures r.isArchived == Some(1) || r.isArchived == Some(0)
    ensures r.isArchived == Some(0) <==> !g.isArchived
    ensures r.userId == g.userId && r.createdAt == g.createdAt
  {
    GoalRow(
      userId := g.userId,
      title := g.title,
      description := Some(g.description),
      category := Some(GoalCategoryTag(g.category)),
      colorHex := Some(g.colorHex),
      frequencyType := Some(FrequencyTypeTag(g.frequency)),
      createdAt := g.createdAt,
      isArchived := Some(if g.isArchived then 1 else 0),
      currentStreak := Some(g.currentStreak),
      longestStreak := Some(g.longestStreak))
  }

  /** `col or default` on a text column: NULL and the empty string both read as the default. */
  function TextOr(col: Option<string>, default: string): (r: string)
    ensures col.Some? && col.value != "" ==> r == col.value
    ensures (col.None? || col.value == "") ==> r == default
  {
    if col.Some? && col.value != "" then col.value else default
  }

  /** `_row_to_goal`: columns back into a goal with the defaults filled in; a missing creation stamp comes from `now`. */
  function RowToGoal(id: string, row: GoalRow, now: Instant): (r: Result<Goal, string>)
    ensures r.Failure? <==> TaskRepository.UnknownTag(row.category, ParseGoalCategory) || TaskRepository.UnknownTag(row.frequencyType, ParseFrequencyType)
    ensures r.Success? ==> r.value.goalId == id && r.value.userId == row.userId && r.value.title == row.title
    ensures r.Success? ==> r.value.colorHex != "" && r.value.createdAt.Some?
    ensures r.Success? ==> (r.value.isArchived <==> row.isArchived.Some? && row.isArchived.value != 0)
    ensures r.Success? && row.createdAt.Some? ==> r.value.createdAt == row.createdAt
    ensures r.Success? ==> r.value.description == TextOr(row.description, "") && r.value.colorHex == TextOr(row.colorHex, DefaultColor)
    ensures r.Success? ==> r.value.currentStreak == row.currentStreak.GetOr(0) && r.value.longestStreak == row.longestStreak.GetOr(0)
    ensures r.Success? ==> TaskRepository.ReadsAs(row.category, ParseGoalCategory, Other, r.value.category)
    ensures r.Success? ==> TaskRepository.ReadsAs(row.frequencyType, ParseFrequencyType, EveryDay, r.value.frequency)
  {
    var category :- TaskRepository.TagOr(row.category, ParseGoalCategory, Other, "GoalCategory");
    var frequency :- TaskRepository.TagOr(row.frequencyType, ParseFrequencyType, EveryDay, "FrequencyType");
    Success(PostInit(Goal(
      goalId := id,
      userId := row.userId,
      title := row.title,
      description := TextOr(row.description, ""),
      category := category,
      colorHex := TextOr(row.colorHex, DefaultColor),
      frequency := frequency,
      createdAt := Some(row.createdAt.GetOr(now)),
      isArchived := row.isArchived.Some? && row.isArchived.value != 0,
      currentStreak := row.currentStreak.GetOr(0),
      longestStreak := row.longestStreak.GetOr(0)), now))
  }

  /** A row whose nullable columns are all NULL reads back with category OTHER, colour #4CAF50, DAILY, zero streaks and an empty description. */
  lemma NullColumnsReadAsDefaults(id: string, userId: string, title: string, now: Instant)
    ensures var r := RowToGoal(id, GoalRow(userId, title, None, None, None, None, None, None, None, None), now);
      && r.Success?
      && r.value.category == Other && r.value.colorHex == "#4CAF50" && r.value.frequency == EveryDay
      && r.value.currentStreak == 0 && r.value.longestStreak == 0 && r.value.description == ""
      && !r.value.isArchived && r.value.createdAt == Some(now)
  {
  }

  /** What a saved goal reads back as: an empty colour becomes the default one, a missing stamp comes from the clock. */
  function Persisted(g: Goal, readNow: Instant): Goal {
    g.(colorHex := TextOr(Some(g.colorHex), DefaultColor), createdAt := Some(g.createdAt.GetOr(readNow)))
  }

  /** Writing a goal's row and reading it back yields the goal, up to the empty colour and a missing stamp. */
  lemma RowRoundTrip(g: Goal, readNow: Instant)
    ensures RowToGoal(g.goalId, ToRow(g), readNow) == Success(Persisted(g, readNow))
    ensures g.colorHex != "" && g.createdAt.Some? ==> Persisted(g, readNow) == g
  {
  }

  /** `get_by_id`: absent ids give no goal; a faulty store or an unreadable row give a storage error. */
  function GetById(tab: GoalTable, id: string, now: Instant, fault: Fault): (r: Result<Option<Goal>, Error>)
    ensures fault != Healthy ==> r == Failure(FaultError("get_by_id", fault))
    ensures fault == Healthy && id !in tab ==> r == Success(None)
    ensures fault == Healthy && id in tab && RowToGoal(id, tab[id], now).Success? ==> r == Success(Some(RowToGoal(id, tab[id], now).value))
    ensures fault == Healthy && id in tab && RowToGoal(id, tab[id], now).Failure? ==> r == Failure(Wrapped("get_by_id", RowToGoal(id, tab[id], now).error))
    ensures r.Success? && r.value.Some? ==> r.value.value.goalId == id
    ensures r.Failure? ==> r.error.DatabaseError?
  {
    if fault != Healthy then Failure(FaultError("get_by_id", fault))
    else if id !in tab then Success(None)
    else match RowToGoal(id, tab[id], now)
      case Success(g) => Success(Some(g))
      case Failure(c) => Failure(Wrapped("get_by_id", c))
  }

  /** `save`: an upsert keyed by the goal's id; on a fault nothing is written. */
  function Save(tab: GoalTable, g: Goal, fault: Fault): (r: Result<GoalTable, Error>)
    ensures fault != Healthy ==> r == Failure(FaultError("save goal", fault))
    ensures fault == Healthy ==> r.Success?
    ensures r.Success? ==> r.value.Keys == tab.Keys + {g.goalId} && r.value[g.goalId] == ToRow(g)
    ensures r.Success? ==> forall k :: k in tab && k != g.goalId ==> r.value[k] == tab[k]
  {
    if fault != Healthy then Failure(FaultError("save goal", fault))
    else Success(tab[g.goalId := ToRow(g)])
  }

  /** `delete`: the shared key removal, its errors wrapped as "delete goal failed: ...". */
  function Delete(tab: GoalTable, id: string, fault: Fault): (r: Result<GoalTable, Error>)
    ensures r == DeleteKey(tab, id, "delete goal", fault)
  {
    DeleteKey(tab, id, "delete goal", fault)
  }

  /** Save then get returns the saved goal, up to the empty colour and a missing stamp. */
  lemma SaveThenGet(tab: GoalTable, g: Goal, readNow: Instant)
    ensures Save(tab, g, Healthy).Success?
    ensures GetById(Save(tab, g, Healthy).value, g.goalId, readNow, Healthy) == Success(Some(Persisted(g, readNow)))
  {
    RowRoundTrip(g, readNow);
  }

  /** After a delete the id is absent, and every other id reads as before. */
  lemma DeleteThenGet(tab: GoalTable, id: string, other: string, now: Instant)
    ensures GetById(Delete(tab, id, Healthy).value, id, now, Healthy) == Success(None)
    ensures other != id ==> GetById(Delete(tab, id, Healthy).value, other, now, Healthy) == GetById(tab, other, now, Healthy)
  {
  }

  /** The `WHERE` clause of `get_all_by_user`; `is_archived = 0` is false for a NULL flag. */
  predicate RowListed(row: GoalRow, userId: string, includeArchived: bool) {
    row.userId == userId && (includeArchived || row.isArchived == Some(0))
  }

  /** `[self._row_to_goal(r) for r in rows]`: every row mapped, or the first unreadable row's error. */
  function RowsToGoals(tab: GoalTable, ids: seq<string>, now: Instant): (r: Result<seq<Goal>, string>)
    requires forall i :: 0 <= i < |ids| ==> ids[i] in tab
    ensures r.Success? <==> forall i :: 0 <= i < |ids| ==> RowToGoal(ids[i], tab[ids[i]], now).Success?
    ensures r.Success? ==> |r.value| == |ids|
    ensures r.Success? ==> forall i :: 0 <= i < |ids| ==> r.value[i] == RowToGoal(ids[i], tab[ids[i]], now).value
    decreases |ids|
  {
    if |ids| == 0 then Success([])
    else
      var first :- RowToGoal(ids[0], tab[ids[0]], now);
      var rest :- RowsToGoals(tab, ids[1..], now);
      Success([first] + rest)
  }

  /**
   * `get_all_by_user`: the user's goals, without the archived ones unless asked for. The
   * query has no `ORDER BY`, so the order is whatever the store picks.
   */
  method GetAllByUser(tab: GoalTable, userId: string, includeArchived: bool, now: Instant, fault: Fault)
    returns (r: Result<seq<Goal>, Error>, ghost ids: seq<string>)
    ensures fault != Healthy ==> r == Failure(FaultError("get_all_by_user", fault))
    ensures r.Failure? ==> r.error.DatabaseError?
    ensures forall i :: 0 <= i < |ids| ==> ids[i] in tab && RowListed(tab[ids[i]], userId, includeArchived)
    ensures forall i, j :: 0 <= i < j < |ids| ==> ids[i] != ids[j]
    ensures r.Success? ==> forall k :: k in tab && RowListed(tab[k], userId, includeArchived) ==> k in ids
    ensures r.Success? ==> |r.value| == |ids|
    ensures r.Success? ==> forall i :: 0 <= i < |ids| ==> RowToGoal(ids[i], tab[ids[i]], now) == Success(r.value[i])
    ensures r.Success? ==> forall i :: 0 <= i < |r.value| ==> r.value[i].userId == userId && (includeArchived || !r.value[i].isArchived)
    ensures fault == Healthy && (forall k :: k in tab ==> RowToGoal(k, tab[k], now).Success?) ==> r.Success?
  {
    if fault != Healthy {
      return Failure(FaultError("get_all_by_user", fault)), [];
    }
    var selected: seq<string> := [];
    var pending := tab.Keys;
    while pending != {}
      invariant pending <= tab.Keys
      invariant forall x :: x in selected ==> x in tab && RowListed(tab[x], userId, includeArchived) && x !in pending
      invariant forall i, j :: 0 <= i < j < |selected| ==> selected[i] != selected[j]
      invariant forall k :: k in tab && k !in pending && RowListed(tab[k], userId, includeArchived) ==> k in selected
      decreases pending
    {
      var k :| k in pending;
      if RowListed(tab[k], userId, includeArchived) {
        selected := selected + [k];
      }
      pending := pending - {k};
    }
    assert forall i :: 0 <= i < |selected| ==> selected[i] in selected;
    ids := selected;
    var mapped := RowsToGoals(tab, selected, now);
    if mapped.Failure? {
      r := Failure(Wrapped("get_all_by_user", mapped.error));
      return;
    }
    r := Success(mapped.value);
  }

  /** Every row `save` writes has a definite archived flag, so for saved goals the listing is exactly the non-archived ones. */
  lemma SavedGoalListedIffActive(g: Goal, includeArchived: bool)
    ensures RowListed(ToRow(g), g.userId, includeArchived) <==> (includeArchived || !g.isArchived)
  {
  }
}

=== FILE: goal_service.dfy ===
/** The goal use cases: the repository's operations, with any non-storage error wrapped into a storage error. */
module GoalService {
  import opened Wrappers
  import opened Timestamps
  import opened Goals
  import opened Storage
  import GoalRepository

  /** `get_by_id`: the repository's answer, its storage errors unchanged. */
  function GetById(tab: GoalRepository.GoalTable, id: string, now: Instant, fault: Fault): (r: Result<Option<Goal>, Error>)
    ensures r == GoalRepository.GetById(tab, id, now, fault)
  {
    RewrapResult("get_by_id", GoalRepository.GetById(tab, id, now, fault))
  }

  /** `save_goal`: an upsert; a fault leaves the table as it was. */
  function SaveGoal(tab: GoalRepository.GoalTable, g: Goal, fault: Fault): (r: Result<GoalRepository.GoalTable, Error>)
    ensures r == GoalRepository.Save(tab, g, fault)
  {
    RewrapResult("save_goal", GoalRepository.Save(tab, g, fault))
  }

  /** `delete_goal`: a delete, absent ids included. */
  function DeleteGoal(tab: GoalRepository.GoalTable, id: string, fault: Fault): (r: Result<GoalRepository.GoalTable, Error>)
    ensures r == GoalRepository.Delete(tab, id, fault)
  {
    RewrapResult("delete_goal", GoalRepository.Delete(tab, id, fault))
  }

  /** Saving through the service and reading back returns the goal as persisted; deleting it makes it unreadable. */
  lemma SaveGetDelete(tab: GoalRepository.GoalTable, g: Goal, now: Instant)
    ensures SaveGoal(tab, g, Healthy).Success?
    ensures GetById(SaveGoal(tab, g, Healthy).value, g.goalId, now, Healthy) == Success(Some(GoalRepository.Persisted(g, now)))
    ensures DeleteGoal(SaveGoal(tab, g, Healthy).value, g.goalId, Healthy).Success?
    ensures GetById(DeleteGoal(SaveGoal(tab, g, Healthy).value, g.goalId, Healthy).value, g.goalId, now, Healthy) == Success(None)
  {
    GoalRepository.SaveThenGet(tab, g, now);
    GoalRepository.DeleteThenGet(SaveGoal(tab, g, Healthy).value, g.goalId, g.goalId, now);
  }

  /** Archiving a saved goal hides it from the default listing but not from the full one. */
  lemma ArchivedGoalHidden(tab: GoalRepository.GoalTable, g: Goal)
    ensures var saved := SaveGoal(tab, Archive(g), Healthy).value;
      && !GoalRepository.RowListed(saved[g.goalId], g.userId, false)
      && GoalRepository.RowListed(saved[g.goalId], g.userId, true)
  {
    GoalRepository.SavedGoalListedIffActive(Archive(g), false);
  }

  /**
   * `get_all_for_user`: the repository's listing unchanged, archived goals left out by default.
   * `ids` names the row each listed goal was read from.
   */
  method GetAllForUser(tab: GoalRepository.GoalTable, userId: string, now: Instant, fault: Fault, includeArchived: bool := false)
    returns (r: Result<seq<Goal>, Error>, ghost ids: seq<string>)
    ensures fault != Healthy ==> r == Failure(FaultError("get_all_by_user", fault))
    ensures r.Failure? ==> r.error.DatabaseError?
    ensures forall i :: 0 <= i < |ids| ==> ids[i] in tab && GoalRepository.RowListed(tab[ids[i]], userId, includeArchived)
    ensures forall i, j :: 0 <= i < j < |ids| ==> ids[i] != ids[j]
    ensures r.Success? ==> forall k :: k in tab && GoalRepository.RowListed(tab[k], userId, includeArchived) ==> k in ids
    ensures r.Success? ==> |r.value| == |ids|
    ensures r.Success? ==> forall i :: 0 <= i < |ids| ==> GoalRepository.RowToGoal(ids[i], tab[ids[i]], now) == Success(r.value[i])
    ensures r.Success? ==> forall i :: 0 <= i < |r.value| ==> r.value[i].userId == userId && (includeArchived || !r.value[i].isArchived)
    ensures r.Success? ==> forall k :: k in tab && GoalRepository.RowListed(tab[k], userId, includeArchived) ==>
      exists i :: 0 <= i < |r.value| && r.value[i].goalId == k
    ensures r.Success? ==> |r.value| == |set k | k in tab && GoalRepository.RowListed(tab[k], userId, includeArchived)|
    ensures fault == Healthy && (forall k :: k in tab ==> GoalRepository.RowToGoal(k, tab[k], now).Success?) ==> r.Success?
  {
    var listed, rows := GoalRepository.GetAllByUser(tab, userId, includeArchived, now, fault);
    ids := rows;
    r := RewrapResult("get_all_for_user", listed);
    assert r == listed;
    if r.Success? {
      forall k | k in tab && GoalRepository.RowListed(tab[k], userId, includeArchived)
        ensures exists i :: 0 <= i < |r.value| && r.value[i].goalId == k
      {
        var i :| 0 <= i < |ids| && ids[i] == k;
        assert GoalRepository.RowToGoal(ids[i], tab[ids[i]], now) == Success(r.value[i]);
      }
      ListedCount(tab, userId, includeArchived, ids);
    }
  }

  /** A duplicate-free list holding exactly the listed keys is as long as the set of them. */
  lemma {:induction false} ListedCount(tab: GoalRepository.GoalTable, userId: string, includeArchived: bool, ids: seq<string>)
    requires forall i :: 0 <= i < |ids| ==> ids[i] in tab && GoalRepository.RowListed(tab[ids[i]], userId, includeArchived)
    requires forall i, j :: 0 <= i < j < |ids| ==> ids[i] != ids[j]
    requires forall k :: k in tab && GoalRepository.RowListed(tab[k], userId, includeArchived) ==> k in ids
    ensures |ids| == |set k | k in tab && GoalRepository.RowListed(tab[k], userId, includeArchived)|
  {
    var s := set k | k in tab && GoalRepository.RowListed(tab[k], userId, includeArchived);
    assert s == set i | 0 <= i < |ids| :: ids[i];
    DistinctCard(ids);
  }
}

=== FILE: like.dfy ===
/**
 * SQLite's default `LIKE`: `%` matches any run of characters, `_` any one character, and
 * every other character matches itself up to ASCII case. No escape character is set.
 */
module SqlLike {
  import opened Text

  /** `text LIKE pattern`. */
  predicate Like(pattern: string, text: string)
    decreases |pattern| + |text|
  {
    if |pattern| == 0 then |text| == 0
    else if pattern[0] == '%' then Like(pattern[1..], text) || (|text| > 0 && Like(pattern, text[1..]))
    else if |text| == 0 then false
    else if pattern[0] == '_' then Like(pattern[1..], text[1..])
    else FoldEq(pattern[0], text[0]) && Like(pattern[1..], text[1..])
  }

  /** The pattern the search builds from a query: `f"%{q}%"`. */
  function ContainsPattern(q: string): string {
    "%" + q + "%"
  }

  predicate NoWildcards(q: string) {
    forall k :: 0 <= k < |q| ==> q[k] != '%' && q[k] != '_'
  }

  /** `q` matches the start of `t` up to ASCII case. */
  predicate FoldPrefix(q: string, t: string) {
    |q| <= |t| && forall k :: 0 <= k < |q| ==> FoldEq(q[k], t[k])
  }

  /** `q` occurs somewhere in `t` up to ASCII case. */
  predicate ContainsFold(t: string, q: string) {
    exists i :: 0 <= i <= |t| && FoldPrefix(q, t[i..])
  }

  /** A lone `%` matches every text. */
  lemma {:induction false} PercentMatchesAll(t: string)
    ensures Like("%", t)
    decreases |t|
  {
    assert "%"[1..] == "";
    if |t| > 0 {
      PercentMatchesAll(t[1..]);
    }
  }

  /** A non-empty pattern that matches the empty text matches every text. */
  lemma {:induction false} EmptyMatchImpliesAll(p: string, t: string)
    requires |p| > 0 && Like(p, "")
    ensures Like(p, t)
    decreases |p|
  {
    assert p[0] == '%';
    if |p| == 1 {
      assert p == "%";
      PercentMatchesAll(t);
    } else {
      EmptyMatchImpliesAll(p[1..], t);
    }
  }

  /** Without wildcards, `q%` matches exactly the texts that start with `q` up to case. */
  lemma {:induction false} PrefixPattern(q: string, t: string)
    requires NoWildcards(q)
    ensures Like(q + "%", t) <==> FoldPrefix(q, t)
    decreases |q|
  {
    if |q| == 0 {
      assert q + "%" == "%";
      PercentMatchesAll(t);
    } else {
      var p := q + "%";
      assert p[0] == q[0];
      assert p[1..] == q[1..] + "%";
      if |t| > 0 {
        PrefixPattern(q[1..], t[1..]);
        if FoldPrefix(q, t) {
          assert FoldPrefix(q[1..], t[1..]) by {
            forall k | 0 <= k < |q[1..]|
              ensures FoldEq(q[1..][k], t[1..][k])
            {
              assert q[1..][k] == q[k + 1] && t[1..][k] == t[k + 1];
            }
          }
        }
        if Like(p, t) {
          assert FoldPrefix(q, t) by {
            forall k | 0 <= k < |q|
              ensures FoldEq(q[k], t[k])
            {
              if k > 0 {
                assert q[1..][k - 1] == q[k] && t[1..][k - 1] == t[k];
              }
            }
          }
        }
      }
    }
  }

  /** Without wildcards, the search pattern `%q%` is exactly case-insensitive substring containment. */
  lemma {:induction false} ContainsPatternIsSubstring(q: string, t: string)
    requires NoWildcards(q)
    ensures Like(ContainsPattern(q), t) <==> ContainsFold(t, q)
    decreases |t|
  {
    var p := ContainsPattern(q);
    assert p[0] == '%';
    assert p[1..] == q + "%";
    PrefixPattern(q, t);
    assert t[0..] == t;
    if |t| > 0 {
      ContainsPatternIsSubstring(q, t[1..]);
      if ContainsFold(t[1..], q) {
        var i :| 0 <= i <= |t[1..]| && FoldPrefix(q, t[1..][i..]);
        assert t[1..][i..] == t[i + 1..];
      }
      if ContainsFold(t, q) && !FoldPrefix(q, t) {
        var i :| 0 <= i <= |t| && FoldPrefix(q, t[i..]);
        assert i > 0;
        assert t[1..][i - 1..] == t[i..];
      }
    } else if ContainsFold(t, q) {
      var i :| 0 <= i <= |t| && FoldPrefix(q, t[i..]);
      assert i == 0;
    }
  }

  /** The underscore is not escaped: the query `_` matches any non-empty text, even one with no underscore in it. */
  lemma UnderscoreQueryMatchesAnything(t: string)
    requires |t| > 0
    ensures Like(ContainsPattern("_"), t)
  {
    var p := ContainsPattern("_");
    assert p == "%_%";
    assert p[1..] == "_%";
    assert p[1..][1..] == "%";
    PercentMatchesAll(t[1..]);
  }
}

=== FILE: recurrence_rule.dfy ===
/**
 * The recurrence rule attached to a task. Only the end date and the occurrence budget
 * influence the two queries; type, interval and weekdays are carried but never consulted.
 */
module Recurrence {
  import opened Wrappers
  import opened Timestamps
  import opened Enums

  datatype RecurrenceRule = RecurrenceRule(
    kind: RecurrenceType,
    interval: int := 1,
    daysOfWeek: Option<seq<DayOfWeek>> := None,
    endDate: Option<Instant> := None,
    maxOccurrences: Option<int> := None)

  /** True when an end date is set and `d` is at or after it. */
  predicate PastEnd(rule: RecurrenceRule, d: Instant) {
    rule.endDate.Some? && AtOrBefore(rule.endDate.value, d)
  }

  /** `get_next_occurrence`: the placeholder returns `from` itself unless the rule has ended. */
  function GetNextOccurrence(rule: RecurrenceRule, from: Instant): (r: Option<Instant>)
    ensures r.None? <==> rule.endDate.Some? && !Before(from, rule.endDate.value)
    ensures r.Some? ==> r.value == from
  {
    if PastEnd(rule, from) then None else Some(from)
  }

  /** `should_repeat`: false once the end date is reached or the occurrence budget is used up. */
  function ShouldRepeat(rule: RecurrenceRule, current: Instant): (r: bool)
    ensures rule.endDate.Some? && !Before(current, rule.endDate.value) ==> !r
    ensures rule.maxOccurrences.Some? && rule.maxOccurrences.value <= 0 ==> !r
    ensures !r ==> PastEnd(rule, current) || (rule.maxOccurrences.Some? && rule.maxOccurrences.value <= 0)
  {
    if PastEnd(rule, current) then false
    else if rule.maxOccurrences.Some? && rule.maxOccurrences.value <= 0 then false
    else true
  }

  /** Whenever the rule still repeats, the next occurrence exists and is the given instant unchanged. */
  lemma RepeatingRuleYieldsSameInstant(rule: RecurrenceRule, d: Instant)
    requires ShouldRepeat(rule, d)
    ensures GetNextOccurrence(rule, d) == Some(d)
  {
  }

  /** Interval, type and weekdays never influence either query. */
  lemma ScheduleFieldsIgnored(rule: RecurrenceRule, kind: RecurrenceType, interval: int, days: Option<seq<DayOfWeek>>, d: Instant)
    ensures GetNextOccurrence(rule.(kind := kind, interval := interval, daysOfWeek := days), d) == GetNextOccurrence(rule, d)
    ensures ShouldRepeat(rule.(kind := kind, interval := interval, daysOfWeek := days), d) == ShouldRepeat(rule, d)
  {
  }

  /** A rule built with only its type has interval 1, no weekdays, no end and no budget, so it always repeats. */
  lemma DefaultRuleRepeatsForever(kind: RecurrenceType, d: Instant)
    ensures RecurrenceRule(kind).interval == 1
    ensures RecurrenceRule(kind).daysOfWeek.None? && RecurrenceRule(kind).endDate.None? && RecurrenceRule(kind).maxOccurrences.None?
    ensures ShouldRepeat(RecurrenceRule(kind), d) && GetNextOccurrence(RecurrenceRule(kind), d) == Some(d)
  {
  }
}

=== FILE: storage.dfy ===
/**
 * The single storage error kind and the faults of the underlying store. The store itself
 * (connection, schema creation) is not part of this model: a repository call is told which
 * fault, if any, the store raises for it.
 */
module Storage {
  import opened Wrappers

  /**
   * `DatabaseError` carries a human-readable cause. `UnboundConnection` is the
   * `UnboundLocalError` an unguarded rollback raises (see `WriteErrorAsWritten`).
   */
  datatype Error = DatabaseError(message: string) | UnboundConnection

  /**
   * What the store does on one repository call: nothing goes wrong; `connect()` raises a
   * `DatabaseError` with the given message; or a statement raises an sqlite error with the given text.
   */
  datatype Fault = Healthy | ConnectFailed(message: string) | StatementFailed(cause: string)

  /** `str(e)` of the exception a fault raises. */
  function FaultText(f: Fault): string
    requires f != Healthy
  {
    match f
    case ConnectFailed(m) => m
    case StatementFailed(c) => c
  }

  /** CPython's text for reading an unbound local variable, here the connection `conn`. */
  const UnboundConnectionText: string := "cannot access local variable 'conn' where it is not associated with a value"

  /** `str(e)` of an error. */
  function ErrorText(e: Error): string {
    match e
    case DatabaseError(m) => m
    case UnboundConnection => UnboundConnectionText
  }

  /** `DatabaseError(f"{context} failed: {e}")`. */
  function Wrapped(context: string, text: string): (r: Error)
    ensures r.DatabaseError? && r.message == context + " failed: " + text
  {
    DatabaseError(context + " failed: " + text)
  }

  /**
   * A repository's `except Exception as e: raise DatabaseError(f"{context} failed: {e}")`:
   * every fault becomes a storage error carrying its cause. Reads always behave so; for
   * saves and deletes of tasks and goals this is the evidently intended behaviour (the user
   * repository guards its rollback to get it), not the written one.
   */
  function FaultError(context: string, f: Fault): (r: Error)
    requires f != Healthy
    ensures r.DatabaseError? && r.message == context + " failed: " + FaultText(f)
  {
    Wrapped(context, FaultText(f))
  }

  /**
   * A save or delete of tasks or goals as written: the handler calls `conn.rollback()` before
   * wrapping, so when `connect()` itself raised, `conn` was never bound and the rollback
   * raises `UnboundLocalError` in place of the storage error.
   */
  function WriteErrorAsWritten(context: string, f: Fault): (r: Error)
    requires f != Healthy
    ensures f.ConnectFailed? ==> r == UnboundConnection
    ensures f.StatementFailed? ==> r == Wrapped(context, f.cause)
  {
    match f
    case ConnectFailed(_) => UnboundConnection
    case StatementFailed(c) => Wrapped(context, c)
  }

  /** A connection failure on the first write escapes as a different error kind, losing its cause. */
  lemma ConnectFailureEscapesAsWritten()
    ensures !WriteErrorAsWritten("save task", ConnectFailed("Failed to connect to database: unable to open database file")).DatabaseError?
  {
  }

  /**
   * A service's `except DatabaseError: raise` / `except Exception as e: raise DatabaseError(...)`:
   * storage errors pass through unchanged, anything else is wrapped into one.
   */
  function Rewrap(context: string, e: Error): (r: Error)
    ensures r.DatabaseError?
    ensures e.DatabaseError? ==> r == e
    ensures !e.DatabaseError? ==> r.message == context + " failed: " + ErrorText(e)
  {
    if e.DatabaseError? then e else Wrapped(context, ErrorText(e))
  }

  /** `Rewrap` on a whole result. */
  function RewrapResult<T>(context: string, r: Result<T, Error>): (s: Result<T, Error>)
    ensures r.Success? ==> s == r
    ensures r.Failure? ==> s == Failure(Rewrap(context, r.error))
    ensures s.Failure? ==> s.error.DatabaseError?
  {
    match r
    case Success(v) => Success(v)
    case Failure(e) => Failure(Rewrap(context, e))
  }

  /**
   * `DELETE FROM <table> WHERE <key> = ?` inside the repositories' `try`: the id is removed if
   * present, an absent id is a no-op, and on a fault the table is untouched.
   */
  function DeleteKey<V>(tab: map<string, V>, id: string, context: string, fault: Fault): (r: Result<map<string, V>, Error>)
    ensures fault != Healthy ==> r == Failure(FaultError(context, fault))
    ensures fault == Healthy ==> r.Success?
    ensures r.Success? ==> r.value.Keys == tab.Keys - {id}
    ensures r.Success? ==> forall k :: k in r.value ==> r.value[k] == tab[k]
    ensures r.Success? && id !in tab ==> r.value == tab
  {
    if fault != Healthy then Failure(FaultError(context, fault))
    else Success(map k | k in tab && k != id :: tab[k])
  }

  /** A duplicate-free list of keys is as long as the set of its elements. */
  lemma {:induction false} DistinctCard<T>(ids: seq<T>)
    requires forall i, j :: 0 <= i < j < |ids| ==> ids[i] != ids[j]
    ensures |set i | 0 <= i < |ids| :: ids[i]| == |ids|
  {
    if |ids| > 0 {
      var rest := ids[1..];
      forall i, j | 0 <= i < j < |rest| ensures rest[i] != rest[j] {
        assert rest[i] == ids[i + 1] && rest[j] == ids[j + 1];
      }
      DistinctCard(rest);
      var s := set i | 0 <= i < |ids| :: ids[i];
      var t := set i | 0 <= i < |rest| :: rest[i];
      assert s == t + {ids[0]} by {
        forall x | x in s ensures x in t + {ids[0]} {
          var i :| 0 <= i < |ids| && ids[i] == x;
          if i > 0 { assert rest[i - 1] == x; }
        }
        forall x | x in t ensures x in s {
          var i :| 0 <= i < |rest| && rest[i] == x;
          assert ids[i + 1] == x;
        }
      }
      assert ids[0] !in t by {
        forall i | 0 <= i < |rest| ensures rest[i] != ids[0] {
          assert rest[i] == ids[i + 1];
        }
      }
    }
  }
}

=== FILE: task.dfy ===
/** The task entity and its three behaviours: complete, snooze and next-instance generation. */
module Tasks {
  import opened Wrappers
  import opened Timestamps
  import opened Enums
  import opened Recurrence

  /**
   * A task record with the dataclass defaults. The creation and update stamps are optional
   * as declared; `PostInit` is the construction hook that fills them.
   */
  datatype Task = Task(
    taskId: string,
    userId: string,
    title: string,
    description: string := "",
    dueDateTime: Option<Instant> := None,
    durationMinutes: int := 0,
    priority: Priority := Medium,
    recurrence: Option<RecurrenceRule> := None,
    isCompleted: bool := false,
    completedAt: Option<Instant> := None,
    taskType: TaskType := Free,
    goalId: Option<string> := None,
    status: TaskStatus := Created,
    progressPercent: int := 0,
    createdAt: Option<Instant> := None,
    updatedAt: Option<Instant> := None)

  /** Both stamps are present, as after construction. */
  predicate Stamped(t: Task) {
    t.createdAt.Some? && t.updatedAt.Some?
  }

  /** `__post_init__`: fills each missing stamp from one reading `now` of the clock. */
  function PostInit(t: Task, now: Instant): (r: Task)
    ensures Stamped(r)
    ensures t.createdAt.Some? ==> r.createdAt == t.createdAt
    ensures t.updatedAt.Some? ==> r.updatedAt == t.updatedAt
    ensures t.createdAt.None? && t.updatedAt.None? ==> r.createdAt == r.updatedAt == Some(now)
    ensures r.(createdAt := t.createdAt, updatedAt := t.updatedAt) == t
  {
    t.(createdAt := Some(t.createdAt.GetOr(now)), updatedAt := Some(t.updatedAt.GetOr(now)))
  }

  /** Construction leaves an already stamped task as it is. */
  lemma PostInitIdempotent(t: Task, n1: Instant, n2: Instant)
    ensures PostInit(PostInit(t, n1), n2) == PostInit(t, n1)
  {
  }

  /** `complete()`: terminal completed state, stamped with `now`; nothing else changes. */
  function Complete(t: Task, now: Instant): (r: Task)
    ensures r.isCompleted && r.status == Completed && r.progressPercent == 100
    ensures r.completedAt == Some(now) && r.updatedAt == Some(now)
    ensures r.(isCompleted := t.isCompleted, completedAt := t.completedAt, status := t.status,
               progressPercent := t.progressPercent, updatedAt := t.updatedAt) == t
  {
    t.(isCompleted := true, completedAt := Some(now), status := Completed, progressPercent := 100, updatedAt := Some(now))
  }

  /** Completing again changes only the stamps: flag, status and progress stay as the first completion left them. */
  lemma CompleteIdempotent(t: Task, n1: Instant, n2: Instant)
    ensures Complete(Complete(t, n1), n2) == Complete(t, n2)
    ensures var once, twice := Complete(t, n1), Complete(Complete(t, n1), n2);
      twice.isCompleted == once.isCompleted && twice.status == once.status && twice.progressPercent == once.progressPercent
  {
  }

  /** There is no guard on the prior state: the result does not depend on the old status, flag or progress, so a cancelled task completes too. */
  lemma CompleteHasNoStatusGuard(t: Task, s: TaskStatus, done: bool, p: int, now: Instant)
    ensures Complete(t.(status := s, isCompleted := done, progressPercent := p), now) == Complete(t, now)
    ensures Complete(t.(status := Cancelled), now).status == Completed
  {
  }

  /** `snooze(until)`: the task becomes snoozed and due at `until`; nothing else changes. */
  function Snooze(t: Task, until: Instant, now: Instant): (r: Task)
    ensures r.status == Snoozed && r.dueDateTime == Some(until) && r.updatedAt == Some(now)
    ensures r.(status := t.status, dueDateTime := t.dueDateTime, updatedAt := t.updatedAt) == t
  {
    t.(status := Snoozed, dueDateTime := Some(until), updatedAt := Some(now))
  }

  /** A second snooze overrides the first; snoozing never touches completion or progress. */
  lemma SnoozeTwice(t: Task, u1: Instant, n1: Instant, u2: Instant, n2: Instant)
    ensures Snooze(Snooze(t, u1, n1), u2, n2) == Snooze(t, u2, n2)
    ensures Snooze(t, u1, n1).isCompleted == t.isCompleted && Snooze(t, u1, n1).progressPercent == t.progressPercent
  {
  }

  /** The instant a recurrence is evaluated against: the due date, or the clock when undated. */
  function ReferenceTime(t: Task, now: Instant): Instant {
    t.dueDateTime.GetOr(now)
  }

  /**
   * `generate_next_instance`: a fresh copy of a recurring task at the rule's next occurrence,
   * or nothing when the task does not recur or its rule has stopped repeating.
   */
  function GenerateNextInstance(t: Task, now: Instant): (r: Option<Task>)
    ensures r.None? <==> t.recurrence.None? || !ShouldRepeat(t.recurrence.value, ReferenceTime(t, now))
    ensures r.Some? ==> r.value.dueDateTime == GetNextOccurrence(t.recurrence.value, ReferenceTime(t, now))
    ensures r.Some? ==> r.value.dueDateTime == Some(ReferenceTime(t, now))
    ensures r.Some? ==>
      && r.value.userId == t.userId && r.value.goalId == t.goalId
      && r.value.title == t.title && r.value.description == t.description
      && r.value.durationMinutes == t.durationMinutes && r.value.priority == t.priority
      && r.value.recurrence == t.recurrence && r.value.taskType == t.taskType
    ensures r.Some? ==>
      && r.value.taskId == "" && r.value.status == Created && !r.value.isCompleted
      && r.value.completedAt.None? && r.value.progressPercent == 0
      && r.value.createdAt == r.value.updatedAt == Some(now)
  {
    if t.recurrence.None? || !ShouldRepeat(t.recurrence.value, ReferenceTime(t, now)) then None
    else
      match GetNextOccurrence(t.recurrence.value, ReferenceTime(t, now))
      case None => None
      case Some(next) =>
        Some(PostInit(Task(
          taskId := "",
          userId := t.userId,
          goalId := t.goalId,
          title := t.title,
          description := t.description,
          dueDateTime := Some(next),
          durationMinutes := t.durationMinutes,
          priority := t.priority,
          recurrence := t.recurrence,
          taskType := t.taskType), now))
  }
}

=== FILE: task_repository.dfy ===
/**
 * The task table and its gateway: lookup by id, the filtered and ordered listing,
 * upsert and delete, and the mapping from a stored row back to a task.
 */
module TaskRepository {
  import opened Wrappers
  import opened Timestamps
  import opened Enums
  import opened Tasks
  import opened Storage
  import opened Text
  import opened SqlLike

  /**
   * One row of the `task` table, keyed by `task_id` in `TaskTable`. Nullable columns are
   * optional; enumerations are held as their stored tags, which may be empty or unknown.
   * Timestamps are kept abstract (their ISO text form is not modelled).
   */
  datatype TaskRow = TaskRow(
    userId: string,
    goalId: Option<string>,
    title: string,
    description: Option<string>,
    dueDateTime: Option<Instant>,
    durationMinutes: Option<int>,
    priority: Option<string>,
    taskType: Option<string>,
    isCompleted: int,
    completedAt: Option<Instant>,
    status: Option<string>,
    progressPercent: Option<int>,
    createdAt: Option<Instant>,
    updatedAt: Option<Instant>)

  type TaskTable = map<string, TaskRow>

  /**
   * The column values `save` writes for a task: every enumeration column holds a tag that decodes
   * back to the task's value, and a missing update stamp is written as `now`.
   */
  function ToRow(t: Task, now: Instant): (r: TaskRow)
    ensures r.priority.Some? && ParsePriority(r.priority.value) == Some(t.priority)
    ensures r.taskType.Some? && ParseTaskType(r.taskType.value) == Some(t.taskType)
    ensures r.status.Some? && ParseTaskStatus(r.status.value) == Some(t.status)
    ensures r.isCompleted != 0 <==> t.isCompleted
    ensures r.updatedAt.Some? && (t.updatedAt.Some? ==> r.updatedAt == t.updatedAt)
    ensures r.createdAt == t.createdAt && r.dueDateTime == t.dueDateTime
  {
    TaskRow(
      userId := t.userId,
      goalId := t.goalId,
      title := t.title,
      description := Some(t.description),
      dueDateTime := t.dueDateTime,
      durationMinutes := Some(t.durationMinutes),
      priority := Some(PriorityTag(t.priority)),
      taskType := Some(TaskTypeTag(t.taskType)),
      isCompleted := if t.isCompleted then 1 else 0,
      completedAt := t.completedAt,
      status := Some(TaskStatusTag(t.status)),
      progressPercent := Some(t.progressPercent),
      createdAt := t.createdAt,
      updatedAt := Some(t.updatedAt.GetOr(now)))
  }

  /** CPython's `ValueError` text for a value no member of the enumeration carries (quote escaping aside). */
  function InvalidValueText(value: string, enumName: string): string {
    "'" + value + "' is not a valid " + enumName
  }

  /** `E(col) if col else default`: an empty or NULL tag reads as the default, an unknown one raises. */
  function TagOr<T>(col: Option<string>, parse: string -> Option<T>, default: T, enumName: string): (r: Result<T, string>)
    ensures (col.None? || col.value == "") ==> r == Success(default)
    ensures col.Some? && col.value != "" && parse(col.value).Some? ==> r == Success(parse(col.value).value)
    ensures col.Some? && col.value != "" && parse(col.value).None? ==> r == Failure(InvalidValueText(col.value, enumName))
  {
    if col.None? || col.value == "" then Success(default)
    else match parse(col.value)
      case Some(v) => Success(v)
      case None => Failure(InvalidValueText(col.value, enumName))
  }

  /** An enumeration column `E(col) if col else default` cannot read: it holds a tag no member carries. */
  predicate UnknownTag<T>(col: Option<string>, parse: string -> Option<T>) {
    col.Some? && col.value != "" && parse(col.value).None?
  }

  /** An enumeration column `E(col) if col else default` that reads gives `v`: the default when empty or NULL, otherwise the member the tag names. */
  predicate ReadsAs<T(==)>(col: Option<string>, parse: string -> Option<T>, default: T, v: T) {
    if col.None? || col.value == "" then v == default else parse(col.value) == Some(v)
  }

  /** `_row_to_task`: columns back into a task with the defaults filled in; the result is then constructed, so missing stamps come from `now`. */
  function RowToTask(id: string, row: TaskRow, now: Instant): (r: Result<Task, string>)
    ensures r.Failure? <==> UnknownTag(row.priority, ParsePriority) || UnknownTag(row.taskType, ParseTaskType) || UnknownTag(row.status, ParseTaskStatus)
    ensures r.Success? ==> r.value.taskId == id && r.value.userId == row.userId && r.value.title == row.title && Stamped(r.value)
    ensures r.Success? ==> (r.value.isCompleted <==> row.isCompleted != 0) && r.value.recurrence.None?
    ensures r.Success? ==> r.value.dueDateTime == row.dueDateTime && r.value.completedAt == row.completedAt
    ensures r.Success? ==> r.value.description == row.description.GetOr("")
    ensures r.Success? ==> r.value.goalId == row.goalId
    ensures r.Success? ==> r.value.durationMinutes == row.durationMinutes.GetOr(0) && r.value.progressPercent == row.progressPercent.GetOr(0)
    ensures r.Success? ==> ReadsAs(row.priority, ParsePriority, Medium, r.value.priority)
    ensures r.Success? ==> ReadsAs(row.taskType, ParseTaskType, Free, r.value.taskType)
    ensures r.Success? ==> ReadsAs(row.status, ParseTaskStatus, Created, r.value.status)
    ensures r.Success? && row.createdAt.Some? ==> r.value.createdAt == row.createdAt
    ensures r.Success? && row.updatedAt.Some? ==> r.value.updatedAt == row.updatedAt
  {
    var priority :- TagOr(row.priority, ParsePriority, Medium, "Priority");
    var taskType :- TagOr(row.taskType, ParseTaskType, Free, "TaskType");
    var status :- TagOr(row.status, ParseTaskStatus, Created, "TaskStatus");
    Success(PostInit(Task(
      taskId := id,
      userId := row.userId,
      goalId := row.goalId,
      title := row.title,
      description := row.description.GetOr(""),
      dueDateTime := row.dueDateTime,
      durationMinutes := row.durationMinutes.GetOr(0),
      priority := priority,
      taskType := taskType,
      isCompleted := row.isCompleted != 0,
      completedAt := row.completedAt,
      status := status,
      progressPercent := row.progressPercent.GetOr(0),
      createdAt := row.createdAt,
      updatedAt := row.updatedAt), now))
  }

  /** A row whose nullable columns are all NULL reads back with the defaults: MEDIUM, FREE, CREATED, progress 0, empty description, zero duration. */
  lemma NullColumnsReadAsDefaults(id: string, userId: string, title: string, done: int, now: Instant)
    ensures var row := TaskRow(userId, None, title, None, None, None, None, None, done, None, None, None, None, None);
      var r := RowToTask(id, row, now);
      && r.Success?
      && r.value.priority == Medium && r.value.taskType == Free && r.value.status == Created
      && r.value.progressPercent == 0 && r.value.description == "" && r.value.durationMinutes == 0
      && r.value.dueDateTime.None? && r.value.goalId.None? && r.value.recurrence.None?
      && r.value.createdAt == r.value.updatedAt == Some(now)
  {
  }

  /** An unknown stored priority makes the row unreadable. */
  lemma UnknownTagIsAnError(id: string, row: TaskRow, now: Instant)
    requires row.priority == Some("critical")
    ensures RowToTask(id, row, now) == Failure(InvalidValueText("critical", "Priority"))
  {
  }

  /** What a saved task reads back as: the recurrence is not stored, and missing stamps come from the clock at save and at read. */
  function Persisted(t: Task, saveNow: Instant, readNow: Instant): Task {
    t.(recurrence := None,
       createdAt := Some(t.createdAt.GetOr(readNow)),
       updatedAt := Some(t.updatedAt.GetOr(saveNow)))
  }

  /** Writing a task's row and reading it back yields the task, up to what is not persisted. */
  lemma RowRoundTrip(t: Task, saveNow: Instant, readNow: Instant)
    ensures RowToTask(t.taskId, ToRow(t, saveNow), readNow) == Success(Persisted(t, saveNow, readNow))
  {
  }

  /** `get_by_id`: absent ids give no task; a faulty store or an unreadable row give a storage error. */
  function GetById(tab: TaskTable, id: string, now: Instant, fault: Fault): (r: Result<Option<Task>, Error>)
    ensures fault != Healthy ==> r == Failure(FaultError("get_by_id", fault))
    ensures fault == Healthy && id !in tab ==> r == Success(None)
    ensures fault == Healthy && id in tab && RowToTask(id, tab[id], now).Success? ==> r == Success(Some(RowToTask(id, tab[id], now).value))
    ensures fault == Healthy && id in tab && RowToTask(id, tab[id], now).Failure? ==> r == Failure(Wrapped("get_by_id", RowToTask(id, tab[id], now).error))
    ensures r.Success? && r.value.Some? ==> r.value.value.taskId == id && Stamped(r.value.value)
    ensures r.Failure? ==> r.error.DatabaseError?
  {
    if fault != Healthy then Failure(FaultError("get_by_id", fault))
    else if id !in tab then Success(None)
    else match RowToTask(id, tab[id], now)
      case Success(t) => Success(Some(t))
      case Failure(c) => Failure(Wrapped("get_by_id", c))
  }

  /** `save`: an upsert keyed by the task's id; on a fault nothing is written. */
  function Save(tab: TaskTable, t: Task, now: Instant, fault: Fault): (r: Result<TaskTable, Error>)
    ensures fault != Healthy ==> r == Failure(FaultError("save task", fault))
    ensures fault == Healthy ==> r.Success?
    ensures r.Success? ==> r.value.Keys == tab.Keys + {t.taskId} && r.value[t.taskId] == ToRow(t, now)
    ensures r.Success? ==> forall k :: k in tab && k != t.taskId ==> r.value[k] == tab[k]
  {
    if fault != Healthy then Failure(FaultError("save task", fault))
    else Success(tab[t.taskId := ToRow(t, now)])
  }

  /** `delete`: the shared key removal, its errors wrapped as "delete task failed: ...". */
  function Delete(tab: TaskTable, id: string, fault: Fault): (r: Result<TaskTable, Error>)
    ensures r == DeleteKey(tab, id, "delete task", fault)
  {
    DeleteKey(tab, id, "delete task", fault)
  }

  /** Save then get returns the saved field values, except that the recurrence reads back as absent and missing stamps are filled. */
  lemma SaveThenGet(tab: TaskTable, t: Task, saveNow: Instant, readNow: Instant)
    ensures Save(tab, t, saveNow, Healthy).Success?
    ensures GetById(Save(tab, t, saveNow, Healthy).value, t.taskId, readNow, Healthy) == Success(Some(Persisted(t, saveNow, readNow)))
    ensures Stamped(t) && t.recurrence.None? ==>
      GetById(Save(tab, t, saveNow, Healthy).value, t.taskId, readNow, Healthy) == Success(Some(t))
  {
    RowRoundTrip(t, saveNow, readNow);
  }

  /** Saving one task leaves every other id's lookup as it was. */
  lemma SaveLeavesOthers(tab: TaskTable, t: Task, id: string, saveNow: Instant, readNow: Instant)
    requires id != t.taskId
    ensures GetById(Save(tab, t, saveNow, Healthy).value, id, readNow, Healthy) == GetById(tab, id, readNow, Healthy)
  {
  }

  /** After a delete the id is absent, and every other id reads as before. */
  lemma DeleteThenGet(tab: TaskTable, id: string, other: string, now: Instant)
    ensures GetById(Delete(tab, id, Healthy).value, id, now, Healthy) == Success(None)
    ensures other != id ==> GetById(Delete(tab, id, Healthy).value, other, now, Healthy) == GetById(tab, other, now, Healthy)
  {
  }

  /** The optional filters of `get_all_by_user`. */
  datatype TaskQuery = TaskQuery(
    userId: string,
    fromDate: Option<Instant> := None,
    toDate: Option<Instant> := None,
    includeCompleted: bool := true,
    searchQuery: Option<string> := None)

  /** The search applies only to a query that is not blank after stripping. */
  predicate SearchActive(q: TaskQuery) {
    q.searchQuery.Some? && Strip(q.searchQuery.value) != ""
  }

  /** The LIKE pattern built from the stripped query. */
  function SearchPattern(q: TaskQuery): string
    requires SearchActive(q)
  {
    ContainsPattern(Strip(q.searchQuery.value))
  }

  /** Both date bounds compare calendar dates only and are inclusive; any bound excludes undated tasks. */
  predicate DueInRange(due: Option<Instant>, q: TaskQuery) {
    && (q.fromDate.Some? ==> due.Some? && due.value.day >= q.fromDate.value.day)
    && (q.toDate.Some? ==> due.Some? && due.value.day <= q.toDate.value.day)
  }

  /** The `WHERE` clause of `get_all_by_user`, on a stored row; a NULL description never matches LIKE. */
  predicate RowMatches(row: TaskRow, q: TaskQuery) {
    && row.userId == q.userId
    && (q.includeCompleted || row.isCompleted == 0)
    && DueInRange(row.dueDateTime, q)
    && (SearchActive(q) ==>
          Like(SearchPattern(q), row.title)
          || (row.description.Some? && Like(SearchPattern(q), row.description.value)))
  }

  /** The same filter, stated on the task a row reads back as. */
  predicate TaskMatches(t: Task, q: TaskQuery) {
    && t.userId == q.userId
    && (q.includeCompleted || !t.isCompleted)
    && DueInRange(t.dueDateTime, q)
    && (SearchActive(q) ==> Like(SearchPattern(q), t.title) || Like(SearchPattern(q), t.description))
  }

  /** A readable row passes the SQL filter exactly when the task it reads back as passes the task filter. */
  lemma RowFilterIsTaskFilter(id: string, row: TaskRow, q: TaskQuery, now: Instant)
    requires RowToTask(id, row, now).Success?
    ensures RowMatches(row, q) <==> TaskMatches(RowToTask(id, row, now).value, q)
  {
    var t := RowToTask(id, row, now).value;
    assert t.userId == row.userId && t.dueDateTime == row.dueDateTime && t.title == row.title;
    assert (t.isCompleted <==> row.isCompleted != 0) && t.description == row.description.GetOr("");
    if SearchActive(q) && row.description.None? && Like(SearchPattern(q), "") {
      EmptyMatchImpliesAll(SearchPattern(q), row.title);
    }
  }

  /** For a query with no `%` or `_`, the search keeps exactly the tasks whose title or description contains it, ignoring ASCII case. */
  lemma SearchIsSubstring(t: Task, q: TaskQuery)
    requires SearchActive(q) && NoWildcards(Strip(q.searchQuery.value))
    ensures (Like(SearchPattern(q), t.title) || Like(SearchPattern(q), t.description)) <==>
      (ContainsFold(t.title, Strip(q.searchQuery.value)) || ContainsFold(t.description, Strip(q.searchQuery.value)))
  {
    ContainsPatternIsSubstring(Strip(q.searchQuery.value), t.title);
    ContainsPatternIsSubstring(Strip(q.searchQuery.value), t.description);
  }

  /** A blank or whitespace-only search is no filter at all. */
  lemma BlankSearchIsNoFilter(q: TaskQuery)
    requires q.searchQuery.Some? && AllSpace(q.searchQuery.value)
    ensures !SearchActive(q)
  {
    StripEmptyIffBlank(q.searchQuery.value);
  }

  /** `ORDER BY due_date_time IS NULL, due_date_time ASC` on one column: dated before undated, then chronological. */
  predicate DueLe(a: Option<Instant>, b: Option<Instant>) {
    match (a, b)
    case (Some(x), Some(y)) => AtOrBefore(x, y)
    case (Some(_), None) => true
    case (None, Some(_)) => false
    case (None, None) => true
  }

  /** `created_at ASC`: SQLite puts NULLs first. */
  predicate CreatedLe(a: Option<Instant>, b: Option<Instant>) {
    match (a, b)
    case (None, _) => true
    case (Some(_), None) => false
    case (Some(x), Some(y)) => AtOrBefore(x, y)
  }

  /** The three-key order of the listing: row `a` may be listed before row `b`. */
  predicate ListedBefore(a: TaskRow, b: TaskRow) {
    if a.dueDateTime == b.dueDateTime then CreatedLe(a.createdAt, b.createdAt)
    else DueLe(a.dueDateTime, b.dueDateTime)
  }

  /** The listing order is a total preorder. */
  lemma ListedBeforeIsTotalPreorder(a: TaskRow, b: TaskRow, c: TaskRow)
    ensures ListedBefore(a, b) || ListedBefore(b, a)
    ensures ListedBefore(a, b) && ListedBefore(b, c) ==> ListedBefore(a, c)
  {
  }

  predicate AllIn(tab: TaskTable, ids: seq<string>) {
    forall i :: 0 <= i < |ids| ==> ids[i] in tab
  }

  predicate Distinct(ids: seq<string>) {
    forall i, j :: 0 <= i < j < |ids| ==> ids[i] != ids[j]
  }

  /** The ids are in listing order of their rows. */
  predicate SortedIds(tab: TaskTable, ids: seq<string>)
    requires AllIn(tab, ids)
  {
    forall i, j :: 0 <= i < j < |ids| ==> ListedBefore(tab[ids[i]], tab[ids[j]])
  }

  /** In ordered ids, the first row may be listed before every later one. */
  lemma HeadListedFirst(tab: TaskTable, ids: seq<string>)
    requires |ids| > 0 && AllIn(tab, ids) && SortedIds(tab, ids)
    ensures forall x :: x in ids[1..] ==> ListedBefore(tab[ids[0]], tab[x])
  {
    forall x | x in ids[1..]
      ensures ListedBefore(tab[ids[0]], tab[x])
    {
      var m :| 0 <= m < |ids[1..]| && ids[1..][m] == x;
      assert ids[m + 1] == x;
    }
  }

  /** Inserts `k` into ordered ids, keeping them ordered and adding nothing else. */
  function Insert(tab: TaskTable, ids: seq<string>, k: string): (r: seq<string>)
    requires k in tab && AllIn(tab, ids) && SortedIds(tab, ids)
    ensures |r| == |ids| + 1 && AllIn(tab, r)
    ensures forall x :: x in r <==> x in ids || x == k
    ensures Distinct(ids) && k !in ids ==> Distinct(r)
    ensures SortedIds(tab, r)
    decreases |ids|
  {
    if |ids| == 0 then [k]
    else if ListedBefore(tab[k], tab[ids[0]]) then
      HeadListedFirst(tab, ids);
      forall j | 0 <= j < |ids| ensures ListedBefore(tab[k], tab[ids[j]]) {
        ListedBeforeIsTotalPreorder(tab[k], tab[ids[0]], tab[ids[j]]);
      }
      [k] + ids
    else
      ListedBeforeIsTotalPreorder(tab[k], tab[ids[0]], tab[k]);
      HeadListedFirst(tab, ids);
      var rest := Insert(tab, ids[1..], k);
      assert forall j :: 0 <= j < |rest| ==> ListedBefore(tab[ids[0]], tab[rest[j]]) by {
        forall j | 0 <= j < |rest| ensures ListedBefore(tab[ids[0]], tab[rest[j]]) {
          assert rest[j] in rest;
        }
      }
      assert Distinct(ids) && k !in ids ==> Distinct([ids[0]] + rest) by {
        if Distinct(ids) && k !in ids {
          assert Distinct(ids[1..]);
          assert forall m :: 0 <= m < |ids[1..]| ==> ids[1..][m] != ids[0];
          var r := [ids[0]] + rest;
          forall i, j | 0 <= i < j < |r|
            ensures r[i] != r[j]
          {
            assert r[j] == rest[j - 1] && r[j] in rest;
            if i > 0 {
              assert r[i] == rest[i - 1];
            }
          }
        }
      }
      [ids[0]] + rest
  }

  /**
   * The rows `get_all_by_user` selects, as their ids in listing order. Rows tied on all
   * three keys come out in whichever order the store picks.
   */
  method SelectTasks(tab: TaskTable, q: TaskQuery) returns (ids: seq<string>)
    ensures AllIn(tab, ids) && Distinct(ids)
    ensures forall i :: 0 <= i < |ids| ==> RowMatches(tab[ids[i]], q)
    ensures forall k :: k in tab && RowMatches(tab[k], q) ==> k in ids
    ensures SortedIds(tab, ids)
  {
    ids := [];
    var pending := tab.Keys;
    while pending != {}
      invariant pending <= tab.Keys
      invariant AllIn(tab, ids) && Distinct(ids) && SortedIds(tab, ids)
      invariant forall x :: x in ids ==> x in tab && RowMatches(tab[x], q) && x !in pending
      invariant forall k :: k in tab && k !in pending && RowMatches(tab[k], q) ==> k in ids
      decreases pending
    {
      var k :| k in pending;
      if RowMatches(tab[k], q) {
        ids := Insert(tab, ids, k);
      }
      pending := pending - {k};
    }
    assert forall i :: 0 <= i < |ids| ==> ids[i] in ids;
  }

  /** `[self._row_to_task(r) for r in rows]`: every row mapped, or the first unreadable row's error. */
  function RowsToTasks(tab: TaskTable, ids: seq<string>, now: Instant): (r: Result<seq<Task>, string>)
    requires AllIn(tab, ids)
    ensures r.Success? <==> forall i :: 0 <= i < |ids| ==> RowToTask(ids[i], tab[ids[i]], now).Success?
    ensures r.Success? ==> |r.value| == |ids|
    ensures r.Success? ==> forall i :: 0 <= i < |ids| ==> r.value[i] == RowToTask(ids[i], tab[ids[i]], now).value
    decreases |ids|
  {
    if |ids| == 0 then Success([])
    else
      var first :- RowToTask(ids[0], tab[ids[0]], now);
      var rest :- RowsToTasks(tab, ids[1..], now);
      Success([first] + rest)
  }

  /** Every task read from selected rows passes the task filter. */
  lemma ListedTasksMatch(tab: TaskTable, ids: seq<string>, tasks: seq<Task>, q: TaskQuery, now: Instant)
    requires AllIn(tab, ids) && |tasks| == |ids|
    requires forall i :: 0 <= i < |ids| ==> RowMatches(tab[ids[i]], q)
    requires forall i :: 0 <= i < |ids| ==> RowToTask(ids[i], tab[ids[i]], now) == Success(tasks[i])
    ensures forall i :: 0 <= i < |tasks| ==> TaskMatches(tasks[i], q)
  {
    forall i | 0 <= i < |tasks|
      ensures TaskMatches(tasks[i], q)
    {
      RowFilterIsTaskFilter(ids[i], tab[ids[i]], q, now);
    }
  }

  /** The listing order stated on tasks: due order, ties by creation time. */
  predicate TaskListedBefore(a: Task, b: Task) {
    if a.dueDateTime == b.dueDateTime then CreatedLe(a.createdAt, b.createdAt)
    else DueLe(a.dueDateTime, b.dueDateTime)
  }

  /**
   * Tasks read from ordered rows are in due order, since a row's due date is the task's.
   * When every row carries a creation stamp the ties are in creation order too; a NULL stamp
   * sorts first in the store but reads back as the clock.
   */
  lemma ListedTasksInOrder(tab: TaskTable, ids: seq<string>, tasks: seq<Task>, now: Instant)
    requires AllIn(tab, ids) && SortedIds(tab, ids) && |tasks| == |ids|
    requires forall i :: 0 <= i < |ids| ==> RowToTask(ids[i], tab[ids[i]], now) == Success(tasks[i])
    ensures forall i, j :: 0 <= i < j < |tasks| ==> DueLe(tasks[i].dueDateTime, tasks[j].dueDateTime)
    ensures (forall i :: 0 <= i < |ids| ==> tab[ids[i]].createdAt.Some?) ==>
      forall i, j :: 0 <= i < j < |tasks| ==> TaskListedBefore(tasks[i], tasks[j])
  {
    forall i, j | 0 <= i < j < |tasks|
      ensures DueLe(tasks[i].dueDateTime, tasks[j].dueDateTime)
      ensures tab[ids[i]].createdAt.Some? && tab[ids[j]].createdAt.Some? ==> TaskListedBefore(tasks[i], tasks[j])
    {
      assert ListedBefore(tab[ids[i]], tab[ids[j]]);
      assert tasks[i].dueDateTime == tab[ids[i]].dueDateTime;
      assert tasks[j].dueDateTime == tab[ids[j]].dueDateTime;
    }
  }

  /**
   * `get_all_by_user`: exactly the user's tasks passing every given filter, dated ones first
   * in due order, ties by creation time. `ids` names the row each listed task was read from.
   */
  method GetAllByUser(tab: TaskTable, q: TaskQuery, now: Instant, fault: Fault)
    returns (r: Result<seq<Task>, Error>, ghost ids: seq<string>)
    ensures fault != Healthy ==> r == Failure(FaultError("get_all_by_user", fault))
    ensures r.Failure? ==> r.error.DatabaseError?
    ensures AllIn(tab, ids) && Distinct(ids) && SortedIds(tab, ids)
    ensures forall i :: 0 <= i < |ids| ==> RowMatches(tab[ids[i]], q)
    ensures r.Success? ==> |r.value| == |ids|
    ensures r.Success? ==> forall i :: 0 <= i < |ids| ==> RowToTask(ids[i], tab[ids[i]], now) == Success(r.value[i])
    ensures r.Success? ==> forall i :: 0 <= i < |r.value| ==> TaskMatches(r.value[i], q)
    ensures r.Success? ==> forall k :: k in tab && RowMatches(tab[k], q) ==> k in ids
    ensures r.Success? ==> forall i, j :: 0 <= i < j < |r.value| ==> DueLe(r.value[i].dueDateTime, r.value[j].dueDateTime)
    ensures r.Success? && (forall k :: k in tab ==> tab[k].createdAt.Some?) ==>
      forall i, j :: 0 <= i < j < |r.value| ==> TaskListedBefore(r.value[i], r.value[j])
    ensures fault == Healthy && (forall k :: k in tab ==> RowToTask(k, tab[k], now).Success?) ==> r.Success?
  {
    if fault != Healthy {
      return Failure(FaultError("get_all_by_user", fault)), [];
    }
    var selected := SelectTasks(tab, q);
    ids := selected;
    var mapped := RowsToTasks(tab, selected, now);
    if mapped.Failure? {
      r := Failure(Wrapped("get_all_by_user", mapped.error));
      return;
    }
    var tasks := mapped.value;
    ListedTasksMatch(tab, selected, tasks, q, now);
    ListedTasksInOrder(tab, selected, tasks, now);
    r := Success(tasks);
  }
}

=== FILE: task_service.dfy ===
/**
 * The task use cases: create with an initial status, partial update, complete, cancel,
 * start, delete, and the pass-through reads. Each call is given the clock reading `now`,
 * the fresh identifier where one is drawn, and the store's fault for each repository call.
 */
module TaskService {
  import opened Wrappers
  import opened Timestamps
  import opened Enums
  import opened Tasks
  import opened Storage
  import TaskRepository

  /** The status `create_task` gives a new task: undated tasks are pending; dated ones are classified by calendar date. */
  function InitialStatus(due: Option<Instant>, now: Instant): (r: TaskStatus)
    ensures r == Pending <==> due.None?
    ensures r == Today <==> due.Some? && due.value.day == now.day
    ensures r == Overdue <==> due.Some? && due.value.day < now.day
    ensures r == Upcoming <==> due.Some? && due.value.day > now.day
  {
    if due.None? then Pending
    else if due.value.day == now.day then Today
    else if Before(due.value, now) then Overdue
    else Upcoming
  }

  /** A task due earlier today is due today, not overdue: the date comparison comes first. */
  lemma EarlierTodayIsToday(now: Instant, tick: nat)
    requires tick < now.tick
    ensures InitialStatus(Some(Instant(now.day, tick)), now) == Today
  {
  }

  /** The task `create_task` builds before saving it. */
  function NewTask(taskId: string, userId: string, title: string, description: string, due: Option<Instant>,
                   durationMinutes: int, priority: Priority, goalId: Option<string>, taskType: TaskType, now: Instant): (t: Task)
    ensures t.taskId == taskId && t.userId == userId && t.title == title && t.description == description
    ensures t.dueDateTime == due && t.durationMinutes == durationMinutes && t.priority == priority
    ensures t.goalId == goalId && t.taskType == taskType
    ensures t.status == InitialStatus(due, now) && t.progressPercent == 0
    ensures !t.isCompleted && t.completedAt.None? && t.recurrence.None?
    ensures t.createdAt == t.updatedAt == Some(now)
  {
    PostInit(Task(taskId, userId, title, description, due, durationMinutes, priority,
                  goalId := goalId, taskType := taskType, status := InitialStatus(due, now), progressPercent := 0), now)
  }

  /** `create_task`: builds the task under the drawn identifier and saves it; the store's error passes through. */
  function CreateTask(tab: TaskRepository.TaskTable, taskId: string, userId: string, title: string, now: Instant, fault: Fault,
                      description: string := "", due: Option<Instant> := None, durationMinutes: int := 0,
                      priority: Priority := Medium, goalId: Option<string> := None, taskType: TaskType := Free)
    : (r: Result<(Task, TaskRepository.TaskTable), Error>)
    ensures fault != Healthy ==> r == Failure(FaultError("save task", fault))
    ensures fault == Healthy ==> r.Success?
    ensures r.Success? ==> r.value.0 == NewTask(taskId, userId, title, description, due, durationMinutes, priority, goalId, taskType, now)
    ensures r.Success? ==> r.value.1 == TaskRepository.Save(tab, r.value.0, now, fault).value
  {
    var t := NewTask(taskId, userId, title, description, due, durationMinutes, priority, goalId, taskType, now);
    var saved :- RewrapResult("create_task", TaskRepository.Save(tab, t, now, fault));
    Success((t, saved))
  }

  /** A created task reads back exactly as it was returned, and under a fresh identifier no other task changes. */
  lemma CreateThenGet(tab: TaskRepository.TaskTable, taskId: string, userId: string, title: string, due: Option<Instant>,
                      now: Instant, later: Instant, other: string)
    requires other != taskId
    ensures var r := CreateTask(tab, taskId, userId, title, now, Healthy, due := due);
      && r.Success?
      && TaskRepository.GetById(r.value.1, taskId, later, Healthy) == Success(Some(r.value.0))
      && TaskRepository.GetById(r.value.1, other, later, Healthy) == TaskRepository.GetById(tab, other, later, Healthy)
      && (taskId !in tab ==> |r.value.1.Keys| == |tab.Keys| + 1)
  {
    var r := CreateTask(tab, taskId, userId, title, now, Healthy, due := due);
    TaskRepository.SaveThenGet(tab, r.value.0, now, later);
    TaskRepository.SaveLeavesOthers(tab, r.value.0, other, now, later);
  }

  /** `max(0, min(100, x))`. */
  function Clamp(x: int): (r: int)
    ensures 0 <= r <= 100
    ensures 0 <= x <= 100 ==> r == x
    ensures x < 0 ==> r == 0
    ensures x > 100 ==> r == 100
  {
    if x < 0 then 0 else if x > 100 then 100 else x
  }

  /** The keyword arguments of `update_task`; an absent field is left alone, so a due date cannot be cleared. */
  datatype TaskPatch = TaskPatch(
    title: Option<string> := None,
    description: Option<string> := None,
    dueDateTime: Option<Instant> := None,
    durationMinutes: Option<int> := None,
    priority: Option<Priority> := None,
    progressPercent: Option<int> := None,
    status: Option<TaskStatus> := None)

  /** Every given field overwrites the stored one, progress clamped to 0..100; the update stamp becomes `now`. */
  function ApplyPatch(t: Task, p: TaskPatch, now: Instant): (r: Task)
    ensures r.title == p.title.GetOr(t.title) && r.description == p.description.GetOr(t.description)
    ensures r.dueDateTime == (if p.dueDateTime.Some? then p.dueDateTime else t.dueDateTime)
    ensures r.durationMinutes == p.durationMinutes.GetOr(t.durationMinutes) && r.priority == p.priority.GetOr(t.priority)
    ensures r.progressPercent == (if p.progressPercent.Some? then Clamp(p.progressPercent.value) else t.progressPercent)
    ensures r.status == p.status.GetOr(t.status)
    ensures r.updatedAt == Some(now)
    ensures r.(title := t.title, description := t.description, dueDateTime := t.dueDateTime, durationMinutes := t.durationMinutes,
               priority := t.priority, progressPercent := t.progressPercent, status := t.status, updatedAt := t.updatedAt) == t
  {
    t.(title := p.title.GetOr(t.title),
       description := p.description.GetOr(t.description),
       dueDateTime := if p.dueDateTime.Some? then p.dueDateTime else t.dueDateTime,
       durationMinutes := p.durationMinutes.GetOr(t.durationMinutes),
       priority := p.priority.GetOr(t.priority),
       progressPercent := if p.progressPercent.Some? then Clamp(p.progressPercent.value) else t.progressPercent,
       status := p.status.GetOr(t.status),
       updatedAt := Some(now))
  }

  /** Applying the same patch twice is applying it once; the empty patch only moves the update stamp. */
  lemma PatchIdempotent(t: Task, p: TaskPatch, n1: Instant, n2: Instant)
    ensures ApplyPatch(ApplyPatch(t, p, n1), p, n2) == ApplyPatch(t, p, n2)
    ensures ApplyPatch(t, TaskPatch(), n1) == t.(updatedAt := Some(n1))
  {
  }

  /**
   * `update_task`: reads the task (outside the error wrapper, so a read error passes as it
   * is), applies the patch and saves it. `None` means the id is unknown and nothing is written.
   */
  function UpdateTask(tab: TaskRepository.TaskTable, id: string, p: TaskPatch, now: Instant, readFault: Fault, writeFault: Fault)
    : (r: Result<(Option<Task>, TaskRepository.TaskTable), Error>)
    ensures readFault != Healthy ==> r == Failure(FaultError("get_by_id", readFault))
    ensures readFault == Healthy && id !in tab ==> r == Success((None, tab))
    ensures readFault == Healthy && id in tab && TaskRepository.RowToTask(id, tab[id], now).Failure? ==>
      r == Failure(Wrapped("get_by_id", TaskRepository.RowToTask(id, tab[id], now).error))
    ensures readFault == Healthy && id in tab && TaskRepository.RowToTask(id, tab[id], now).Success? && writeFault != Healthy ==>
      r == Failure(FaultError("save task", writeFault))
    ensures readFault == Healthy && writeFault == Healthy && id in tab && TaskRepository.RowToTask(id, tab[id], now).Success? ==>
      r.Success? && r.value.0.Some?
    ensures r.Success? && r.value.0.Some? ==>
      && id in tab
      && TaskRepository.RowToTask(id, tab[id], now).Success?
      && r.value.0.value == ApplyPatch(TaskRepository.RowToTask(id, tab[id], now).value, p, now)
      && r.value.1 == tab[id := TaskRepository.ToRow(r.value.0.value, now)]
    ensures r.Failure? ==> r.error.DatabaseError?
  {
    var found :- TaskRepository.GetById(tab, id, now, readFault);
    if found.None? then Success((None, tab))
    else
      var t := ApplyPatch(found.value, p, now);
      var saved :- RewrapResult("update_task", TaskRepository.Save(tab, t, now, writeFault));
      Success((Some(t), saved))
  }

  /** What `update_task` returns is what a later read finds. */
  lemma UpdateThenGet(tab: TaskRepository.TaskTable, id: string, p: TaskPatch, now: Instant, later: Instant)
    requires UpdateTask(tab, id, p, now, Healthy, Healthy).Success?
    requires UpdateTask(tab, id, p, now, Healthy, Healthy).value.0.Some?
    ensures var r := UpdateTask(tab, id, p, now, Healthy, Healthy).value;
      TaskRepository.GetById(r.1, id, later, Healthy) == Success(r.0)
  {
    var r := UpdateTask(tab, id, p, now, Healthy, Healthy).value;
    TaskRepository.SaveThenGet(tab, r.0.value, now, later);
  }

  /** `cancel_task`: an update whose only field is the cancelled status. */
  function CancelTask(tab: TaskRepository.TaskTable, id: string, now: Instant, readFault: Fault, writeFault: Fault)
    : (r: Result<(Option<Task>, TaskRepository.TaskTable), Error>)
    ensures readFault != Healthy ==> r == Failure(FaultError("get_by_id", readFault))
    ensures readFault == Healthy && id !in tab ==> r == Success((None, tab))
    ensures readFault == Healthy && id in tab && TaskRepository.RowToTask(id, tab[id], now).Failure? ==>
      r == Failure(Wrapped("get_by_id", TaskRepository.RowToTask(id, tab[id], now).error))
    ensures readFault == Healthy && id in tab && TaskRepository.RowToTask(id, tab[id], now).Success? && writeFault != Healthy ==>
      r == Failure(FaultError("save task", writeFault))
    ensures readFault == Healthy && writeFault == Healthy && id in tab && TaskRepository.RowToTask(id, tab[id], now).Success? ==>
      r.Success? && r.value.0.Some?
    ensures r.Success? && r.value.0.Some? ==>
      && id in tab && TaskRepository.RowToTask(id, tab[id], now).Success?
      && r.value.0.value == TaskRepository.RowToTask(id, tab[id], now).value.(status := Cancelled, updatedAt := Some(now))
      && r.value.1 == tab[id := TaskRepository.ToRow(r.value.0.value, now)]
    ensures r.Failure? ==> r.error.DatabaseError?
  {
    UpdateTask(tab, id, TaskPatch(status := Some(Cancelled)), now, readFault, writeFault)
  }

  /** `set_task_running`: an update whose only field is the in-progress status. */
  function SetTaskRunning(tab: TaskRepository.TaskTable, id: string, now: Instant, readFault: Fault, writeFault: Fault)
    : (r: Result<(Option<Task>, TaskRepository.TaskTable), Error>)
    ensures readFault != Healthy ==> r == Failure(FaultError("get_by_id", readFault))
    ensures readFault == Healthy && id !in tab ==> r == Success((None, tab))
    ensures readFault == Healthy && id in tab && TaskRepository.RowToTask(id, tab[id], now).Failure? ==>
      r == Failure(Wrapped("get_by_id", TaskRepository.RowToTask(id, tab[id], now).error))
    ensures readFault == Healthy && id in tab && TaskRepository.RowToTask(id, tab[id], now).Success? && writeFault != Healthy ==>
      r == Failure(FaultError("save task", writeFault))
    ensures readFault == Healthy && writeFault == Healthy && id in tab && TaskRepository.RowToTask(id, tab[id], now).Success? ==>
      r.Success? && r.value.0.Some?
    ensures r.Success? && r.value.0.Some? ==>
      && id in tab && TaskRepository.RowToTask(id, tab[id], now).Success?
      && r.value.0.value == TaskRepository.RowToTask(id, tab[id], now).value.(status := InProgress, updatedAt := Some(now))
      && r.value.1 == tab[id := TaskRepository.ToRow(r.value.0.value, now)]
    ensures r.Failure? ==> r.error.DatabaseError?
  {
    UpdateTask(tab, id, TaskPatch(status := Some(InProgress)), now, readFault, writeFault)
  }

  /** A cancelled task reads back cancelled, and every other field is as it was stored. */
  lemma CancelThenGet(tab: TaskRepository.TaskTable, id: string, now: Instant, later: Instant)
    requires id in tab && TaskRepository.RowToTask(id, tab[id], now).Success?
    ensures var r := CancelTask(tab, id, now, Healthy, Healthy);
      && r.Success? && r.value.0.Some?
      && TaskRepository.GetById(r.value.1, id, later, Healthy) == Success(r.value.0)
      && r.value.0.value.status == Cancelled
      && r.value.0.value.(status := TaskRepository.RowToTask(id, tab[id], now).value.status, updatedAt := TaskRepository.RowToTask(id, tab[id], now).value.updatedAt)
         == TaskRepository.RowToTask(id, tab[id], now).value
  {
    var r := CancelTask(tab, id, now, Healthy, Healthy);
    TaskRepository.SaveThenGet(tab, r.value.0.value, now, later);
  }

  /** A started task reads back in progress, and every other field is as it was stored. */
  lemma SetRunningThenGet(tab: TaskRepository.TaskTable, id: string, now: Instant, later: Instant)
    requires id in tab && TaskRepository.RowToTask(id, tab[id], now).Success?
    ensures var r := SetTaskRunning(tab, id, now, Healthy, Healthy);
      && r.Success? && r.value.0.Some?
      && TaskRepository.GetById(r.value.1, id, later, Healthy) == Success(r.value.0)
      && r.value.0.value.status == InProgress
      && r.value.0.value.(status := TaskRepository.RowToTask(id, tab[id], now).value.status, updatedAt := TaskRepository.RowToTask(id, tab[id], now).value.updatedAt)
         == TaskRepository.RowToTask(id, tab[id], now).value
  {
    var r := SetTaskRunning(tab, id, now, Healthy, Healthy);
    TaskRepository.SaveThenGet(tab, r.value.0.value, now, later);
  }

  /** `complete_task`: reads the task, completes it and saves it; `None` when the id is unknown. */
  function CompleteTask(tab: TaskRepository.TaskTable, id: string, now: Instant, readFault: Fault, writeFault: Fault)
    : (r: Result<(Option<Task>, TaskRepository.TaskTable), Error>)
    ensures readFault != Healthy ==> r == Failure(FaultError("get_by_id", readFault))
    ensures readFault == Healthy && id !in tab ==> r == Success((None, tab))
    ensures readFault == Healthy && id in tab && TaskRepository.RowToTask(id, tab[id], now).Failure? ==>
      r == Failure(Wrapped("get_by_id", TaskRepository.RowToTask(id, tab[id], now).error))
    ensures readFault == Healthy && id in tab && TaskRepository.RowToTask(id, tab[id], now).Success? && writeFault != Healthy ==>
      r == Failure(FaultError("save task", writeFault))
    ensures readFault == Healthy && writeFault == Healthy && id in tab && TaskRepository.RowToTask(id, tab[id], now).Success? ==>
      r.Success? && r.value.0.Some?
    ensures r.Success? && r.value.0.Some? ==>
      && id in tab
      && TaskRepository.RowToTask(id, tab[id], now).Success?
      && r.value.0.value == Complete(TaskRepository.RowToTask(id, tab[id], now).value, now)
      && r.value.1 == tab[id := TaskRepository.ToRow(r.value.0.value, now)]
    ensures r.Failure? ==> r.error.DatabaseError?
  {
    var found :- TaskRepository.GetById(tab, id, now, readFault);
    if found.None? then Success((None, tab))
    else
      var t := Complete(found.value, now);
      var saved :- RewrapResult("complete_task", TaskRepository.Save(tab, t, now, writeFault));
      Success((Some(t), saved))
  }

  /** A completed task reads back exactly as returned: completed, with status COMPLETED at 100 percent. */
  lemma CompleteThenGet(tab: TaskRepository.TaskTable, id: string, now: Instant, later: Instant)
    requires CompleteTask(tab, id, now, Healthy, Healthy).Success?
    requires CompleteTask(tab, id, now, Healthy, Healthy).value.0.Some?
    ensures var r := CompleteTask(tab, id, now, Healthy, Healthy).value;
      && TaskRepository.GetById(r.1, id, later, Healthy) == Success(r.0)
      && r.0.value.isCompleted && r.0.value.status == Completed && r.0.value.progressPercent == 100
  {
    var r := CompleteTask(tab, id, now, Healthy, Healthy).value;
    TaskRepository.SaveThenGet(tab, r.0.value, now, later);
  }

  /** `delete_task`: deletes and reports `true`, whether or not the id existed. */
  function DeleteTask(tab: TaskRepository.TaskTable, id: string, fault: Fault): (r: Result<(bool, TaskRepository.TaskTable), Error>)
    ensures fault != Healthy ==> r == Failure(FaultError("delete task", fault))
    ensures fault == Healthy ==> r.Success? && r.value.0 && r.value.1.Keys == tab.Keys - {id}
    ensures r.Success? ==> r.value.0 && r.value.1 == TaskRepository.Delete(tab, id, fault).value
  {
    var deleted :- RewrapResult("delete_task", TaskRepository.Delete(tab, id, fault));
    Success((true, deleted))
  }

  /** `get_by_id`: the repository's answer; its errors are storage errors already and pass unchanged. */
  function GetById(tab: TaskRepository.TaskTable, id: string, now: Instant, fault: Fault): (r: Result<Option<Task>, Error>)
    ensures r == TaskRepository.GetById(tab, id, now, fault)
  {
    RewrapResult("get_by_id", TaskRepository.GetById(tab, id, now, fault))
  }

  /**
   * `get_tasks_for_user`: the repository's filtered and ordered listing, its errors unchanged.
   * `ids` names the row each listed task was read from.
   */
  method GetTasksForUser(tab: TaskRepository.TaskTable, q: TaskRepository.TaskQuery, now: Instant, fault: Fault)
    returns (r: Result<seq<Task>, Error>, ghost ids: seq<string>)
    ensures fault != Healthy ==> r == Failure(FaultError("get_all_by_user", fault))
    ensures r.Failure? ==> r.error.DatabaseError?
    ensures TaskRepository.AllIn(tab, ids) && TaskRepository.Distinct(ids) && TaskRepository.SortedIds(tab, ids)
    ensures forall i :: 0 <= i < |ids| ==> TaskRepository.RowMatches(tab[ids[i]], q)
    ensures r.Success? ==> |r.value| == |ids|
    ensures r.Success? ==> forall i :: 0 <= i < |ids| ==> TaskRepository.RowToTask(ids[i], tab[ids[i]], now) == Success(r.value[i])
    ensures r.Success? ==> forall k :: k in tab && TaskRepository.RowMatches(tab[k], q) ==> k in ids
    ensures r.Success? ==> forall i :: 0 <= i < |r.value| ==> TaskRepository.TaskMatches(r.value[i], q)
    ensures r.Success? ==> forall i, j :: 0 <= i < j < |r.value| ==> TaskRepository.DueLe(r.value[i].dueDateTime, r.value[j].dueDateTime)
    ensures r.Success? && (forall k :: k in tab ==> tab[k].createdAt.Some?) ==>
      forall i, j :: 0 <= i < j < |r.value| ==> TaskRepository.TaskListedBefore(r.value[i], r.value[j])
    ensures r.Success? ==> |r.value| == |set k | k in tab && TaskRepository.RowMatches(tab[k], q)|
    ensures fault == Healthy && (forall k :: k in tab ==> TaskRepository.RowToTask(k, tab[k], now).Success?) ==> r.Success?
  {
    var listed, rows := TaskRepository.GetAllByUser(tab, q, now, fault);
    ids := rows;
    r := RewrapResult("get_tasks_for_user", listed);
    assert r == listed;
    if r.Success? {
      MatchingCount(tab, q, ids);
    }
  }

  /** A duplicate-free list holding exactly the matching keys is as long as the set of them. */
  lemma {:induction false} MatchingCount(tab: TaskRepository.TaskTable, q: TaskRepository.TaskQuery, ids: seq<string>)
    requires TaskRepository.AllIn(tab, ids) && TaskRepository.Distinct(ids)
    requires forall i :: 0 <= i < |ids| ==> TaskRepository.RowMatches(tab[ids[i]], q)
    requires forall k :: k in tab && TaskRepository.RowMatches(tab[k], q) ==> k in ids
    ensures |ids| == |set k | k in tab && TaskRepository.RowMatches(tab[k], q)|
  {
    var s := set k | k in tab && TaskRepository.RowMatches(tab[k], q);
    assert s == set i | 0 <= i < |ids| :: ids[i];
    DistinctCard(ids);
  }
}

=== FILE: text.dfy ===
/** Python string primitives the core relies on: `str.isspace`, `strip`, `lstrip(c)`. */
module Text {

  /** Python's `str.isspace()` for one character. */
  predicate IsSpace(c: char) {
    var n := c as int;
    || (0x09 <= n <= 0x0D) || (0x1C <= n <= 0x20) || n == 0x85 || n == 0xA0 || n == 0x1680
    || (0x2000 <= n <= 0x200A) || n == 0x2028 || n == 0x2029 || n == 0x202F || n == 0x205F || n == 0x3000
  }

  predicate AllSpace(s: string) {
    forall k :: 0 <= k < |s| ==> IsSpace(s[k])
  }

  /** Leading whitespace removed: a suffix of `s` preceded only by whitespace and not starting with any. */
  function LStrip(s: string): (r: string)
    ensures |r| <= |s| && r == s[|s| - |r|..]
    ensures AllSpace(s[..|s| - |r|])
    ensures |r| > 0 ==> !IsSpace(r[0])
  {
    if |s| > 0 && IsSpace(s[0]) then LStrip(s[1..]) else s
  }

  /** Trailing whitespace removed: a prefix of `s` followed only by whitespace and not ending with any. */
  function RStrip(s: string): (r: string)
    ensures |r| <= |s| && r == s[..|r|]
    ensures AllSpace(s[|r|..])
    ensures |r| > 0 ==> !IsSpace(r[|r| - 1])
  {
    if |s| > 0 && IsSpace(s[|s| - 1]) then RStrip(s[..|s| - 1]) else s
  }

  /** `s.strip()`: whitespace removed at both ends. */
  function Strip(s: string): (r: string)
    ensures |r| > 0 ==> !IsSpace(r[0]) && !IsSpace(r[|r| - 1])
  {
    RStrip(LStrip(s))
  }

  /** A string strips to nothing exactly when it is all whitespace. */
  lemma StripEmptyIffBlank(s: string)
    ensures Strip(s) == "" <==> AllSpace(s)
  {
    var l := LStrip(s);
    if |l| == 0 {
      assert s[..|s|] == s;
    } else {
      assert l[0] == s[|s| - |l|];
    }
  }

  /** `s.lstrip(c)`: every leading occurrence of `c` removed. */
  function LStripChar(s: string, c: char): (r: string)
    ensures |r| <= |s| && r == s[|s| - |r|..]
    ensures forall k :: 0 <= k < |s| - |r| ==> s[k] == c
    ensures |r| > 0 ==> r[0] != c
  {
    if |s| > 0 && s[0] == c then LStripChar(s[1..], c) else s
  }

  /** SQLite's case folding: upper-case ASCII letters to lower case, every other character as it is. */
  function AsciiLower(c: char): (r: char)
    ensures 'A' <= c <= 'Z' ==> r as int == c as int + 32
    ensures !('A' <= c <= 'Z') ==> r == c
  {
    if 'A' <= c <= 'Z' then (c as int + 32) as char else c
  }

  /** Equal up to ASCII case. */
  predicate FoldEq(a: char, b: char) {
    AsciiLower(a) == AsciiLower(b)
  }
}

=== FILE: timestamps.dfy ===
/**
 * Abstract timestamps. A Python `datetime` is modelled as a calendar day number and a
 * position within that day; their text encoding is not part of this model.
 */
module Timestamps {

  /** `day` is the calendar date (`datetime.date()`), `tick` the time of day. */
  datatype Instant = Instant(day: int, tick: nat)

  /** Strict chronological order: `a < b` on datetimes. */
  predicate Before(a: Instant, b: Instant) {
    a.day < b.day || (a.day == b.day && a.tick < b.tick)
  }

  /** Non-strict chronological order: `a <= b` on datetimes. */
  predicate AtOrBefore(a: Instant, b: Instant) {
    Before(a, b) || a == b
  }

  /** The order on instants is a strict total order. */
  lemma BeforeIsStrictTotalOrder(a: Instant, b: Instant, c: Instant)
    ensures !Before(a, a)
    ensures Before(a, b) ==> !Before(b, a)
    ensures Before(a, b) && Before(b, c) ==> Before(a, c)
    ensures a == b || Before(a, b) || Before(b, a)
  {
  }

  /** Two instants on different calendar dates are ordered by their dates alone. */
  lemma DifferentDaysOrderedByDate(a: Instant, b: Instant)
    requires a.day != b.day
    ensures Before(a, b) <==> a.day < b.day
  {
  }
}

=== FILE: user.dfy ===
/** The user entity, its notification preferences, and the two mutations on it. */
module Users {
  import opened Wrappers
  import opened Timestamps

  /** Notification preferences with their defaults; quiet hours are hours of the day. */
  datatype NotificationPreferences = NotificationPreferences(
    enabled: bool := true,
    sound: Option<string> := None,
    quietHoursStart: Option<int> := None,
    quietHoursEnd: Option<int> := None,
    defaultReminderMinutes: int := 15)

  datatype User = User(
    userId: string,
    name: string,
    email: string,
    createdAt: Instant,
    isStudentMode: bool := false,
    preferences: NotificationPreferences := NotificationPreferences())

  /** The defaults: notifications on, 15 minutes' lead, no sound and no quiet hours. */
  lemma DefaultPreferences()
    ensures NotificationPreferences() == NotificationPreferences(true, None, None, None, 15)
  {
  }

  /** `toggle_student_mode`: flips the flag and nothing else. */
  function ToggleStudentMode(u: User): (r: User)
    ensures r.isStudentMode != u.isStudentMode
    ensures r.(isStudentMode := u.isStudentMode) == u
  {
    u.(isStudentMode := !u.isStudentMode)
  }

  /** Toggling twice restores the user. */
  lemma ToggleTwiceRestores(u: User)
    ensures ToggleStudentMode(ToggleStudentMode(u)) == u
  {
  }

  /** A keyword argument's value, as far as the preference fields can hold it. */
  datatype PrefValue = BoolValue(b: bool) | IntValue(i: int) | StrValue(s: string) | NoneValue

  /** One keyword argument `name=value` of `update_preferences`. */
  datatype Keyword = Keyword(name: string, value: PrefValue)

  /** The attribute names of `NotificationPreferences`. */
  predicate IsField(name: string) {
    || name == "enabled" || name == "sound" || name == "quiet_hours_start"
    || name == "quiet_hours_end" || name == "default_reminder_minutes"
  }

  /** The value a field holds, as a keyword value. */
  function FieldValue(p: NotificationPreferences, name: string): PrefValue
    requires IsField(name)
  {
    if name == "enabled" then BoolValue(p.enabled)
    else if name == "sound" then (if p.sound.Some? then StrValue(p.sound.value) else NoneValue)
    else if name == "quiet_hours_start" then (if p.quietHoursStart.Some? then IntValue(p.quietHoursStart.value) else NoneValue)
    else if name == "quiet_hours_end" then (if p.quietHoursEnd.Some? then IntValue(p.quietHoursEnd.value) else NoneValue)
    else IntValue(p.defaultReminderMinutes)
  }

  /** A keyword that names a field carries a value of that field's declared type. */
  predicate WellTyped(k: Keyword) {
    match k.name
    case "enabled" => k.value.BoolValue?
    case "sound" => k.value.StrValue? || k.value.NoneValue?
    case "quiet_hours_start" => k.value.IntValue? || k.value.NoneValue?
    case "quiet_hours_end" => k.value.IntValue? || k.value.NoneValue?
    case "default_reminder_minutes" => k.value.IntValue?
    case _ => true
  }

  /** `setattr` on the preferences when `hasattr` holds; any other name is ignored. */
  function SetAttr(p: NotificationPreferences, k: Keyword): (r: NotificationPreferences)
    requires WellTyped(k)
    ensures IsField(k.name) ==> FieldValue(r, k.name) == k.value
    ensures forall f :: IsField(f) && f != k.name ==> FieldValue(r, f) == FieldValue(p, f)
    ensures !IsField(k.name) ==> r == p
  {
    match k.name
    case "enabled" => p.(enabled := k.value.b)
    case "sound" => p.(sound := if k.value.StrValue? then Some(k.value.s) else None)
    case "quiet_hours_start" => p.(quietHoursStart := if k.value.IntValue? then Some(k.value.i) else None)
    case "quiet_hours_end" => p.(quietHoursEnd := if k.value.IntValue? then Some(k.value.i) else None)
    case "default_reminder_minutes" => p.(defaultReminderMinutes := k.value.i)
    case _ => p
  }

  /** Every keyword in the sequence is well typed. */
  predicate AllWellTyped(kwargs: seq<Keyword>) {
    forall i :: 0 <= i < |kwargs| ==> WellTyped(kwargs[i])
  }

  /** No keyword at or after position `from` names `f`. */
  predicate NotNamedFrom(kwargs: seq<Keyword>, f: string, from: int) {
    forall j :: from <= j < |kwargs| && 0 <= j ==> kwargs[j].name != f
  }

  /**
   * `update_preferences(**kwargs)`: keywords are applied in order; those that name a
   * preference field overwrite it, the rest are ignored. The user's own fields are untouched.
   */
  function UpdatePreferences(u: User, kwargs: seq<Keyword>): (r: User)
    requires AllWellTyped(kwargs)
    ensures r.(preferences := u.preferences) == u
    decreases |kwargs|
  {
    if |kwargs| == 0 then u
    else
      var before := UpdatePreferences(u, kwargs[..|kwargs| - 1]);
      before.(preferences := SetAttr(before.preferences, kwargs[|kwargs| - 1]))
  }

  /** A preference field no keyword names keeps its old value. */
  lemma {:induction false} UnnamedFieldsUnchanged(u: User, kwargs: seq<Keyword>, f: string)
    requires AllWellTyped(kwargs)
    requires IsField(f) && NotNamedFrom(kwargs, f, 0)
    ensures FieldValue(UpdatePreferences(u, kwargs).preferences, f) == FieldValue(u.preferences, f)
    decreases |kwargs|
  {
    if |kwargs| > 0 {
      var init := kwargs[..|kwargs| - 1];
      assert forall j :: 0 <= j < |init| ==> init[j] == kwargs[j];
      UnnamedFieldsUnchanged(u, init, f);
    }
  }

  /**
   * A preference field named by some keyword ends up holding the value of the last keyword naming it.
   * Python's keyword arguments never repeat a name, so for a real call every keyword is the last
   * one naming its field and the field holds that keyword's value; the repeated case is covered
   * only because the model's keyword sequence could express it.
   */
  lemma {:induction false} LastKeywordWins(u: User, kwargs: seq<Keyword>, i: int)
    requires AllWellTyped(kwargs)
    requires 0 <= i < |kwargs| && IsField(kwargs[i].name) && NotNamedFrom(kwargs, kwargs[i].name, i + 1)
    ensures FieldValue(UpdatePreferences(u, kwargs).preferences, kwargs[i].name) == kwargs[i].value
    decreases |kwargs|
  {
    var init := kwargs[..|kwargs| - 1];
    assert forall j :: 0 <= j < |init| ==> init[j] == kwargs[j];
    if i < |kwargs| - 1 {
      assert kwargs[|kwargs| - 1].name != kwargs[i].name;
      LastKeywordWins(u, init, i);
    }
  }

  /** Keywords that name no preference field change nothing at all. */
  lemma {:induction false} UnknownKeywordsIgnored(u: User, kwargs: seq<Keyword>)
    requires forall i :: 0 <= i < |kwargs| ==> !IsField(kwargs[i].name)
    ensures AllWellTyped(kwargs) && UpdatePreferences(u, kwargs) == u
    decreases |kwargs|
  {
    if |kwargs| > 0 {
      var init := kwargs[..|kwargs| - 1];
      assert forall j :: 0 <= j < |init| ==> init[j] == kwargs[j];
      UnknownKeywordsIgnored(u, init);
    }
  }
}

=== FILE: user_repository.dfy ===
/** The `user` and `user_preferences` tables and their gateway: lookup with preferences, and upsert. */
module UserRepository {
  import opened Wrappers
  import opened Timestamps
  import opened Users
  import opened Storage

  /** One row of the `user` table, keyed by `user_id`. */
  datatype UserRow = UserRow(name: string, email: string, isStudentMode: int, createdAt: Option<Instant>, updatedAt: Option<Instant>)

  /** One row of `user_preferences`, keyed by `pref_id`; `user_id` is not unique in the schema. */
  datatype PrefRow = PrefRow(userId: string, notificationsEnabled: Option<int>, defaultReminderMinutes: Option<int>)

  datatype UserTables = UserTables(users: map<string, UserRow>, prefs: map<string, PrefRow>)

  /** The key `save` gives a user's preference row. */
  function PrefId(userId: string): string {
    "pref_" + userId
  }

  lemma PrefIdInjective(a: string, b: string)
    ensures PrefId(a) == PrefId(b) <==> a == b
  {
    if PrefId(a) == PrefId(b) {
      assert a == PrefId(a)[5..];
      assert b == PrefId(b)[5..];
    }
  }

  /** Every preference row sits under the key `save` gives it; `save` is the only writer. */
  predicate PrefsKeyed(prefs: map<string, PrefRow>) {
    forall k :: k in prefs ==> k == PrefId(prefs[k].userId)
  }

  /** The empty store is keyed. */
  lemma EmptyStoreKeyed()
    ensures PrefsKeyed(map[])
  {
  }

  /** In a keyed store a user has at most one preference row, the one under `PrefId`. */
  lemma KeyedRowIsUnique(prefs: map<string, PrefRow>, uid: string, k: string)
    requires PrefsKeyed(prefs)
    requires k in prefs && prefs[k].userId == uid
    ensures k == PrefId(uid)
  {
  }

  /** `_get_preferences` on a found row: a NULL flag reads as off, NULL or 0 minutes as 15; the rest take their defaults. */
  function PrefsFromRow(row: PrefRow): (p: NotificationPreferences)
    ensures p.enabled <==> row.notificationsEnabled.Some? && row.notificationsEnabled.value != 0
    ensures row.defaultReminderMinutes.Some? && row.defaultReminderMinutes.value != 0 ==> p.defaultReminderMinutes == row.defaultReminderMinutes.value
    ensures row.defaultReminderMinutes.None? || row.defaultReminderMinutes.value == 0 ==> p.defaultReminderMinutes == 15
    ensures p.sound.None? && p.quietHoursStart.None? && p.quietHoursEnd.None?
  {
    NotificationPreferences(
      enabled := row.notificationsEnabled.Some? && row.notificationsEnabled.value != 0,
      defaultReminderMinutes := if row.defaultReminderMinutes.Some? && row.defaultReminderMinutes.value != 0 then row.defaultReminderMinutes.value else 15)
  }

  /** The preferences stored for a user in a keyed store; the defaults when there is no row. */
  function StoredPreferences(prefs: map<string, PrefRow>, uid: string): NotificationPreferences {
    if PrefId(uid) in prefs && prefs[PrefId(uid)].userId == uid then PrefsFromRow(prefs[PrefId(uid)])
    else NotificationPreferences()
  }

  /**
   * `_get_preferences`: the first row of `WHERE user_id = ?`, in an order SQL leaves open, or
   * the defaults when there is none. In a keyed store the choice is forced.
   */
  method GetPreferences(prefs: map<string, PrefRow>, uid: string) returns (p: NotificationPreferences)
    ensures (forall k :: k in prefs ==> prefs[k].userId != uid) ==> p == NotificationPreferences()
    ensures (exists k :: k in prefs && prefs[k].userId == uid) ==> exists k :: k in prefs && prefs[k].userId == uid && p == PrefsFromRow(prefs[k])
    ensures PrefsKeyed(prefs) ==> p == StoredPreferences(prefs, uid)
  {
    if k :| k in prefs && prefs[k].userId == uid {
      p := PrefsFromRow(prefs[k]);
    } else {
      p := NotificationPreferences();
    }
  }

  /** The user a `user` row and the loaded preferences describe; a missing stamp comes from `now`. */
  function UserFromRow(uid: string, row: UserRow, prefs: NotificationPreferences, now: Instant): (u: User)
    ensures u.userId == uid && u.name == row.name && u.email == row.email && u.preferences == prefs
    ensures u.isStudentMode <==> row.isStudentMode != 0
    ensures u.createdAt == row.createdAt.GetOr(now)
  {
    User(uid, row.name, row.email, createdAt := row.createdAt.GetOr(now), isStudentMode := row.isStudentMode != 0, preferences := prefs)
  }

  /** `get_by_id` on a keyed store, where the preference lookup is deterministic. */
  function Lookup(db: UserTables, uid: string, now: Instant, fault: Fault): (r: Result<Option<User>, Error>)
    ensures fault != Healthy ==> r == Failure(FaultError("get_by_id", fault))
    ensures fault == Healthy ==> r.Success? && (r.value.Some? <==> uid in db.users)
    ensures r.Success? && r.value.Some? ==> r.value.value == UserFromRow(uid, db.users[uid], StoredPreferences(db.prefs, uid), now)
  {
    if fault != Healthy then Failure(FaultError("get_by_id", fault))
    else if uid !in db.users then Success(None)
    else Success(Some(UserFromRow(uid, db.users[uid], StoredPreferences(db.prefs, uid), now)))
  }

  /** `get_by_id`: the user with the preferences `_get_preferences` finds, or none; a faulty store gives a storage error. */
  method GetById(db: UserTables, uid: string, now: Instant, fault: Fault) returns (r: Result<Option<User>, Error>)
    ensures fault != Healthy ==> r == Failure(FaultError("get_by_id", fault))
    ensures fault == Healthy ==> r.Success? && (r.value.Some? <==> uid in db.users)
    ensures r.Success? && r.value.Some? ==> r.value.value == UserFromRow(uid, db.users[uid], r.value.value.preferences, now)
    ensures r.Success? && r.value.Some? && (forall k :: k in db.prefs ==> db.prefs[k].userId != uid) ==> r.value.value.preferences == NotificationPreferences()
    ensures PrefsKeyed(db.prefs) ==> r == Lookup(db, uid, now, fault)
  {
    if fault != Healthy {
      return Failure(FaultError("get_by_id", fault));
    }
    if uid !in db.users {
      return Success(None);
    }
    var p := GetPreferences(db.prefs, uid);
    r := Success(Some(UserFromRow(uid, db.users[uid], p, now)));
  }

  /** The `user` row `save` writes: `updated_at` is the clock, and with its own preferences the row reads back as the user. */
  function UserToRow(u: User, now: Instant): (r: UserRow)
    ensures r.updatedAt == Some(now)
    ensures forall n :: UserFromRow(u.userId, r, u.preferences, n) == u
  {
    UserRow(u.name, u.email, if u.isStudentMode then 1 else 0, Some(u.createdAt), Some(now))
  }

  /** The preference row `save` writes: it reads back with the user's flag, and with the user's minutes unless those are 0. */
  function PrefsToRow(u: User): (r: PrefRow)
    ensures r.userId == u.userId
    ensures PrefsFromRow(r).enabled == u.preferences.enabled
    ensures u.preferences.defaultReminderMinutes != 0 ==> PrefsFromRow(r).defaultReminderMinutes == u.preferences.defaultReminderMinutes
  {
    PrefRow(u.userId, Some(if u.preferences.enabled then 1 else 0), Some(u.preferences.defaultReminderMinutes))
  }

  /**
   * `save`: upserts the user row with `updated_at` set to `now` and the preference row under
   * `PrefId`, in one transaction: on a fault neither is written. The guarded rollback keeps a
   * failed connection a storage error.
   */
  function Save(db: UserTables, u: User, now: Instant, fault: Fault): (r: Result<UserTables, Error>)
    ensures fault != Healthy ==> r == Failure(FaultError("save user", fault))
    ensures fault == Healthy ==> r.Success?
    ensures r.Success? ==> r.value.users.Keys == db.users.Keys + {u.userId} && r.value.users[u.userId] == UserToRow(u, now)
    ensures r.Success? ==> r.value.prefs.Keys == db.prefs.Keys + {PrefId(u.userId)} && r.value.prefs[PrefId(u.userId)] == PrefsToRow(u)
    ensures r.Success? ==> forall k :: k in db.users && k != u.userId ==> r.value.users[k] == db.users[k]
    ensures r.Success? ==> forall k :: k in db.prefs && k != PrefId(u.userId) ==> r.value.prefs[k] == db.prefs[k]
    ensures r.Success? && PrefsKeyed(db.prefs) ==> PrefsKeyed(r.value.prefs)
  {
    if fault != Healthy then Failure(FaultError("save user", fault))
    else Success(UserTables(db.users[u.userId := UserToRow(u, now)], db.prefs[PrefId(u.userId) := PrefsToRow(u)]))
  }

  /** What a saved user reads back as: only the notification flag and the reminder minutes persist, and 0 minutes read as 15. */
  function Persisted(u: User): User {
    u.(preferences := NotificationPreferences(
      enabled := u.preferences.enabled,
      defaultReminderMinutes := if u.preferences.defaultReminderMinutes != 0 then u.preferences.defaultReminderMinutes else 15))
  }

  /** Save then get on a keyed store returns the saved user as persisted; other users read as before. */
  lemma SaveThenGet(db: UserTables, u: User, saveNow: Instant, readNow: Instant, other: string)
    requires PrefsKeyed(db.prefs)
    ensures Save(db, u, saveNow, Healthy).Success?
    ensures Lookup(Save(db, u, saveNow, Healthy).value, u.userId, readNow, Healthy) == Success(Some(Persisted(u)))
    ensures other != u.userId ==> Lookup(Save(db, u, saveNow, Healthy).value, other, readNow, Healthy) == Lookup(db, other, readNow, Healthy)
  {
    PrefIdInjective(u.userId, other);
  }

  /** A user whose extra preferences are unset and whose minutes are not 0 round-trips exactly. */
  lemma PlainUserRoundTrips(u: User)
    requires u.preferences.sound.None? && u.preferences.quietHoursStart.None? && u.preferences.quietHoursEnd.None?
    requires u.preferences.defaultReminderMinutes != 0
    ensures Persisted(u) == u
  {
  }
}

=== FILE: user_service.dfy ===
/** The user use case of the single-user application: fetch the default user, creating it on first use. */
module UserService {
  import opened Wrappers
  import opened Timestamps
  import opened Users
  import opened Storage
  import UserRepository

  const DefaultUserId: string := "default_user"

  /** The user `get_or_create_default_user` creates when there is none, stamped `now`. */
  function DefaultUser(now: Instant): (u: User)
    ensures u.userId == "default_user" && u.name == "User" && u.email == "user@local"
    ensures !u.isStudentMode && u.preferences == NotificationPreferences() && u.createdAt == now
  {
    User(DefaultUserId, "User", "user@local", now, isStudentMode := false)
  }

  /**
   * `get_or_create_default_user`: the stored default user, or a new one that is saved first.
   * The repository's errors pass unchanged. `readFault` and `writeFault` are the store's
   * faults on the lookup and on the save.
   */
  method GetOrCreateDefaultUser(db: UserRepository.UserTables, now: Instant, readFault: Fault, writeFault: Fault)
    returns (r: Result<(User, UserRepository.UserTables), Error>)
    ensures readFault != Healthy ==> r == Failure(FaultError("get_by_id", readFault))
    ensures readFault == Healthy && DefaultUserId !in db.users && writeFault != Healthy ==> r == Failure(FaultError("save user", writeFault))
    ensures r.Success? ==> r.value.0.userId == DefaultUserId && DefaultUserId in r.value.1.users
    ensures r.Success? && DefaultUserId in db.users ==> r.value.1 == db && r.value.0.name == db.users[DefaultUserId].name
    ensures r.Success? && DefaultUserId in db.users ==>
      r.value.0 == UserRepository.UserFromRow(DefaultUserId, db.users[DefaultUserId], r.value.0.preferences, now)
    ensures r.Success? && DefaultUserId in db.users && UserRepository.PrefsKeyed(db.prefs) ==>
      r.value.0 == UserRepository.Lookup(db, DefaultUserId, now, Healthy).value.value
    ensures r.Success? && DefaultUserId !in db.users ==>
      r.value.0 == DefaultUser(now) && r.value.1 == UserRepository.Save(db, DefaultUser(now), now, writeFault).value
    ensures r.Success? ==> r.value.1.users.Keys == db.users.Keys + {DefaultUserId}
    ensures readFault == Healthy && DefaultUserId in db.users ==> r.Success? && r.value.1 == db
    ensures readFault == Healthy && writeFault == Healthy ==> r.Success?
    ensures r.Success? && UserRepository.PrefsKeyed(db.prefs) ==> UserRepository.PrefsKeyed(r.value.1.prefs)
  {
    var found :- UserRepository.GetById(db, DefaultUserId, now, readFault);
    if found.Some? {
      return Success((found.value, db));
    }
    var u := DefaultUser(now);
    var saved :- UserRepository.Save(db, u, now, writeFault);
    r := Success((u, saved));
  }

  /** Two calls in a row: the second finds the user the first returned, saves nothing and leaves the store as the first left it. */
  method CallTwice(db: UserRepository.UserTables, now: Instant, later: Instant, readFault: Fault, writeFault: Fault)
    returns (first: Result<(User, UserRepository.UserTables), Error>, second: Result<(User, UserRepository.UserTables), Error>)
    ensures first.Success? ==> second.Success? && second.value.1 == first.value.1
    ensures first.Success? ==> second.value.0.userId == first.value.0.userId == DefaultUserId
    ensures first.Success? ==> first.value.1.users.Keys == db.users.Keys + {DefaultUserId}
  {
    first := GetOrCreateDefaultUser(db, now, readFault, writeFault);
    if first.Failure? {
      second := first;
      return;
    }
    second := GetOrCreateDefaultUser(first.value.1, later, Healthy, writeFault);
  }

  /** On a keyed store the user created on first use is the one a later lookup finds, save for the preferences' defaults it already has. */
  lemma CreatedUserReadsBack(db: UserRepository.UserTables, now: Instant, later: Instant)
    requires UserRepository.PrefsKeyed(db.prefs)
    ensures var saved := UserRepository.Save(db, DefaultUser(now), now, Healthy).value;
      UserRepository.Lookup(saved, DefaultUserId, later, Healthy) == Success(Some(DefaultUser(now)))
  {
    UserRepository.SaveThenGet(db, DefaultUser(now), now, later, DefaultUserId);
    UserRepository.PlainUserRoundTrips(DefaultUser(now));
  }
}

=== FILE: wrappers.dfy ===
/** Absent values and fallible results, shared by every layer of the model. */
module Wrappers {

  /** A Python `Optional[T]`: `None` or a present value. */
  datatype Option<+T> = None | Some(value: T) {

    /** The present value, or `default` when absent (Python's `x or default` on non-falsy values). */
    function GetOr(default: T): T {
      match this
      case Some(v) => v
      case None => default
    }

    predicate IsFailure() {
      None?
    }

    /** Absence carried over to another value type. */
    function PropagateFailure<U>(): Option<U>
      requires None?
    {
      None
    }

    function Extract(): T
      requires Some?
    {
      value
    }
  }

  /** An operation that either returns a value or raises an error. */
  datatype Result<+T, +E> = Success(value: T) | Failure(error: E) {

    predicate IsFailure() {
      Failure?
    }

    /** The same error with a different success type. */
    function PropagateFailure<U>(): Result<U, E>
      requires Failure?
    {
      Failure(error)
    }

    function Extract(): T
      requires Success?
    {
      value
    }
  }
}
